=== FILE: README.md ===
# Mahes Adventure — a Dafny model of the game progression engine

Mahes Adventure is a browser quiz adventure. A player creates a profile and then
travels through four regions: Emerald Forest, Luminara City, Mount Resolute and
the Valley of Wisdom. Each region poses questions. Every answer option carries an
effect: a score change, a karma change, and optionally an item (a crown or sash
fragment, or a bonus hint). The run ends once at least 20 questions are
answered and the player either continues out of a region with no question left
or selects the finished fourth region again. The ending (good, neutral or bad)
depends on karma and on whether every fragment was collected. Finished runs go to a leaderboard that keeps the best 50 by score.

This project models that engine as pure Dafny functions and proves properties of
it:

- the game manager's state updates: score, karma, hints, fragment tokens, ending,
  counts, and the leaderboard with its sort and top-50 cut;
- the page controller's phase machine (landing, setup, map, challenge, feedback,
  ending, leaderboard), including the auto-save effect, region selection and
  unlocking, answering, hints, continuing and completion;
- the parts of the five screens whose logic matters: the profile form's name
  checks, the challenge screen's countdown and hint button, the region map's
  badges, the HUD's hearts and counters, the ending summary, and the leaderboard
  rows;
- the JavaScript built-ins these rely on, written out exactly: `trim`, `\s`,
  `parseInt`, `Number#toString`, `padStart` and the three time formatters.

Modules, in dependency order:

| module | file | models |
|---|---|---|
| `Wrappers` | wrappers.dfy | `Option` |
| `Text` | text.dfy | JavaScript white space, `trim`, UTF-16 length, `startsWith`, `includes`, `split(sep)[0]` |
| `Numerals` | numerals.dfy | decimal `toString`, `padStart`, `parseInt`, and a reader that recovers the numbers in a label |
| `TimeFormat` | time_format.dfy | the four time labels |
| `GameTypes` | game_types.dfy | `src/types/game.ts` |
| `Ranking` | ranking.dfy | the leaderboard's stable sort by score and its cut to 50 |
| `GameManager` | game_manager.dfy | `src/lib/gameManager.ts` |
| `RegionMap` | region_map.dfy | `RegionMap.tsx` |
| `ChallengeScreen` | challenge_screen.dfy | `ChallengeScreen.tsx` |
| `PlayerSetup` | player_setup.dfy | `PlayerSetup.tsx` |
| `GameHud` | game_hud.dfy | `GameHUD.tsx` |
| `EndingScreen` | ending_screen.dfy | `EndingScreen.tsx` |
| `LeaderboardView` | leaderboard_view.dfy | `Leaderboard.tsx` |
| `Session` | session.dfy | `src/pages/Index.tsx`: a `World` (page state plus storage), an `Intent` per user action or timer event, and `Step` = handler then auto-save |
| `SessionInvariants` | session_invariants.dfy | the invariant every step keeps, and its consequences |

The central result is `SessionInvariants.RunKeepsGood`. For a fixed question
catalog, handed out in any order on each call, every run of intents from
well-formed storage keeps all of the following true:

- karma stays in 0..100, and score, hints and used hints stay non-negative;
- crown tracks have 10 slots, and sash tracks 9 or 10;
- the unlocked regions are exactly `[1, 2, ..., n]`, and region k+1 is open only
  once every catalog question of region k is completed;
- the current region is one of 1..4;
- no question id is completed twice;
- during a challenge, the open question is an uncompleted question of the current
  region, and the hint index is reachable;
- the ending screen is reached only after 20 completions;
- the leaderboard stays sorted and holds at most 50 entries;
- outside landing and setup, the save slot holds the game on screen.

Behaviour that follows from the code as written, proved here:

- `GameManager.SashTenGrowsTrack`: the token `fragment_sash_10` is accepted.
  It grows the 9-slot sash track to 10 slots. The HUD then shows "10/9"
  (`GameHud.SashCanExceedDenominator`).
- `ChallengeScreen.FirstHintNeverShown`: a question's first hint
  is never displayed, because the first press already moves the index to 1.
  `ChallengeScreen.SingleHintNeverEnabled`: for a question with one hint, the
  hint button is never enabled.
- `ChallengeScreen.UntimedIsTimeUp`: a question with time limit 0 starts no
  timer, and it shows the time-up warning from the start.
- `RegionMap.IdCountsByContainment`: region completion on the map counts ids by
  substring. So `q010` counts for region 1.
- `Session.FinalSelectionIsForgotten`: completing the run by selecting region 4
  goes through a delayed call that captured the game from before the selection.
  So the new current region is lost.
- `Session.LeaderboardDetourSkipsSetup`: on a first visit, opening and closing
  the leaderboard auto-saves the new game. Pressing start then resumes that save
  on the map, with an empty player name, and never shows the profile form.
- `GameManager.SaveIgnoresReportedFragments`: the leaderboard takes fragment
  counts from storage, not from the caller. `SessionInvariants.SavedRunCountsTheGame`
  shows that on the ending screen these are the game's own counts.
- `SessionInvariants.SavingTwiceStoresTwice`: the save button can be pressed
  repeatedly, and each press adds the run again.

Behaviour of the code as written that the model follows:

- Fragment slots 1..10 are accepted on both tracks (the range checks at
  `gameManager.ts` lines 122 and 134 are commented "up to 10 fragments"). A new game's sash track has 9 slots, so
  `fragment_sash_10` grows it to 10, and the HUD's fixed `/9` denominator
  (`GameHUD.tsx` lines 113-116) then shows 10/9 (`GameHud.SashCanExceedDenominator`).
- The continue button never unlocks a region. A region is unlocked only when the
  player selects a finished region on the map (`Session.UnlockOnlyBySelection`,
  `Session.ContinueNeverUnlocks`).
- The run completes from the feedback dialog only when the current region has no
  question left and at least 20 are completed, whatever the current region is;
  while the region still has a pending question, continuing opens it whatever the
  count. The only other way to complete is selecting finished region 4 again
  with at least 20 completions.
- The completion threshold is the constant 20 written in `Index.tsx`; it equals
  four regions of 5 challenges in the region table of `RegionMap.tsx`, but is not
  derived from it.
- The completed list is an array that `handleAnswer` appends to without a
  duplicate check. The page never adds a duplicate
  (`SessionInvariants.ProgressOk`).

## Model

| member | source | states |
|---|---|---|
| Text.Utf16Length | mahes-azure-quest-main/src/components/game/PlayerSetup.tsx:23-27 | a name's `length` counts UTF-16 code units: between one and two per character |
| Text.Trim | mahes-azure-quest-main/src/components/game/PlayerSetup.tsx:22 | the result is the infix of the input left after removing JavaScript white space at both ends; it starts and ends with a non-space |
| Text.TrimIdempotent | mahes-azure-quest-main/src/components/game/PlayerSetup.tsx:22 | trimming twice is trimming once |
| Text.ContainsIsInfix | mahes-azure-quest-main/src/components/game/RegionMap.tsx:57 | `includes` holds exactly when the pattern occurs at some position |
| Text.UntilChar | mahes-azure-quest-main/src/lib/gameManager.ts:121 | a `split('_')` piece, read from where it starts, is the longest prefix without the separator, and the whole rest when there is none; the tokens' slot number is the piece after `fragment_crown_` or `fragment_sash_` |
| Numerals.Decimal | mahes-azure-quest-main/src/lib/gameManager.ts:231-233 | `toString` of a non-negative integer is a non-empty digit string denoting it, without leading zeros |
| Numerals.PadStart | mahes-azure-quest-main/src/lib/gameManager.ts:231-233 | `padStart` keeps the text as a suffix, fills only in front, and reaches the width |
| Numerals.TwoDigitsReadsBack | mahes-azure-quest-main/src/components/game/ChallengeScreen.tsx:80 | a zero-padded seconds field is all digits, denotes the number, and has length 2 below 100 |
| Numerals.ParseIntReadsDecimal | mahes-azure-quest-main/src/lib/gameManager.ts:121 | `parseInt` reads back the decimal text of every natural number |
| Numerals.ParseIntNeedsDigit | mahes-azure-quest-main/src/lib/gameManager.ts:121 | text without a digit parses to NaN |
| Numerals.ParseIntSkipsSpace | mahes-azure-quest-main/src/lib/gameManager.ts:121 | leading white space does not change what `parseInt` reads |
| Numerals.ParseInt | mahes-azure-quest-main/src/lib/gameManager.ts:121 | `parseInt`: leading white space skipped, an optional sign, then the longest digit run; partners `ParseIntReadsDecimal`, `ParseIntNeedsDigit` and `ParseIntSkipsSpace` state what it reads |
| TimeFormat.ClockParts | mahes-azure-quest-main/src/lib/gameManager.ts:226-228 | hours, minutes and seconds recombine to the input, minutes and seconds are below 60, hours are positive from 3600 on |
| TimeFormat.FormatTimeReadsBack | mahes-azure-quest-main/src/lib/gameManager.ts:225-234 | the numbers in `formatTime`'s label recombine to the seconds; three fields from one hour on, two below |
| TimeFormat.EndingFormatTimeReadsBack | mahes-azure-quest-main/src/components/game/EndingScreen.tsx:56-65 | the numbers in the `Hj Mm Sd` label recombine to the seconds, with the hour field only from one hour on |
| TimeFormat.BoardFormatTimeReadsBack | mahes-azure-quest-main/src/components/game/Leaderboard.tsx:11-19 | the numbers in the `Hj Mm` label recombine to the whole minutes |
| TimeFormat.ClockLabelReadsBack | mahes-azure-quest-main/src/components/game/ChallengeScreen.tsx:80 | the `m:ss` clock has two fields that recombine to the seconds left |
| TimeFormat.FormatTime | mahes-azure-quest-main/src/lib/gameManager.ts:225-234 | `h:mm:ss` from one hour on, else `m:ss`; `FormatTimeReadsBack` shows its fields recombine to the seconds |
| TimeFormat.EndingFormatTime | mahes-azure-quest-main/src/components/game/EndingScreen.tsx:56-65 | `Hj Mm Sd`, the hour part only from one hour on; `EndingFormatTimeReadsBack` shows its fields recombine to the seconds |
| TimeFormat.BoardFormatTime | mahes-azure-quest-main/src/components/game/Leaderboard.tsx:11-19 | `Hj Mm`, the hour part only from one hour on; `BoardFormatTimeReadsBack` shows its fields recombine to the whole minutes |
| TimeFormat.ClockLabel | mahes-azure-quest-main/src/components/game/ChallengeScreen.tsx:80 | the countdown `m:ss` with unreduced minutes; `ClockLabelReadsBack` shows its two fields recombine to the seconds left |
| GameTypes.EndingLabelInjective | mahes-azure-quest-main/src/types/game.ts:87 | the three ending texts are distinct |
| Ranking.Insert | mahes-azure-quest-main/src/lib/gameManager.ts:203 | one insertion step of the stable sort: the result holds the old entries plus the new one |
| Ranking.InsertGroup | mahes-azure-quest-main/src/lib/gameManager.ts:203 | within its own score the inserted entry goes in front of the entries already there, which keep their order; every other score group is unchanged |
| Ranking.InsertSorted | mahes-azure-quest-main/src/lib/gameManager.ts:203 | inserting into a score-sorted list keeps it sorted |
| Ranking.SortByScore | mahes-azure-quest-main/src/lib/gameManager.ts:203 | the stable sort is sorted by score, highest first, is a permutation, and keeps the order within each score |
| Ranking.Record | mahes-azure-quest-main/src/lib/gameManager.ts:202-206 | the list written back is sorted, at most 50 long, drawn from old entries plus the new one, and equal to all of them when there was room |
| Ranking.RecordKeepsTheBest | mahes-azure-quest-main/src/lib/gameManager.ts:202-206 | the kept list is the head of the sorted list, the dropped entries are the rest, and each of them scores no higher than every kept entry |
| Ranking.FullBoardDropsLowest | mahes-azure-quest-main/src/lib/gameManager.ts:202-206 | on a full board exactly one entry, old or new, is dropped, and it scores no higher than any other |
| Ranking.RecordOnSortedBoard | mahes-azure-quest-main/src/lib/gameManager.ts:202-206 | on a sorted board the sort inserts the new entry after every entry scoring at least as much, and leaves the old entries in place around it |
| GameManager.InitialStateFacts | mahes-azure-quest-main/src/lib/gameManager.ts:17-52 | a new game: score 0, karma 50, 3 hints, region 1 current and the only one open, no fragment, a bad ending so far |
| GameManager.InitialState | mahes-azure-quest-main/src/lib/gameManager.ts:17-52 | the new game of `getInitialState`; `InitialStateFacts` states its values and `SessionInvariants.InitialGameOk` that it satisfies the game invariant |
| GameManager.CountTrue | mahes-azure-quest-main/src/lib/gameManager.ts:112-113 | the count of set slots is at most the track length, and equals it exactly when every slot is set |
| GameManager.HasAllFragments | mahes-azure-quest-main/src/lib/gameManager.ts:105-109 | true exactly when each track's count equals its length |
| GameManager.FragmentCount | mahes-azure-quest-main/src/lib/gameManager.ts:111-115 | the total is the sum of the two track counts, each bounded by its track length |
| GameManager.AllFragmentsIsFullCount | mahes-azure-quest-main/src/lib/gameManager.ts:105-115 | on well-shaped tracks, having every fragment means counting 10 crowns and the whole sash track |
| GameManager.CalculateEnding | mahes-azure-quest-main/src/lib/gameManager.ts:91-103 | good exactly with every fragment and karma ≥ 70; neutral exactly with every fragment and karma in 40..69; bad otherwise |
| GameManager.EndingMonotone | mahes-azure-quest-main/src/lib/gameManager.ts:91-103 | more karma or more fragments never gives a worse ending |
| GameManager.EndingBoundaries | mahes-azure-quest-main/src/lib/gameManager.ts:91-103 | the thresholds are at exactly 70 and 40, and a missing fragment always gives the bad ending |
| GameManager.UpdateScore | mahes-azure-quest-main/src/lib/gameManager.ts:160-169 | the score moves by the change unless that would go below 0, where it stops at 0; nothing else changes |
| GameManager.UpdateScoreMonotone | mahes-azure-quest-main/src/lib/gameManager.ts:160-169 | a larger change never yields a smaller score, and soundness is kept |
| GameManager.ScoreClampsPerCall | mahes-azure-quest-main/src/lib/gameManager.ts:160-169 | clamping per call makes two changes differ from their sum |
| GameManager.UpdateKarma | mahes-azure-quest-main/src/lib/gameManager.ts:149-158 | karma becomes the point of 0..100 nearest to karma plus change; nothing else changes |
| GameManager.UpdateKarmaExact | mahes-azure-quest-main/src/lib/gameManager.ts:149-158 | inside the range the change applies exactly |
| GameManager.UpdateKarmaSound | mahes-azure-quest-main/src/lib/gameManager.ts:149-158 | a sound game stays sound |
| GameManager.UseHint | mahes-azure-quest-main/src/lib/gameManager.ts:171-186 | with a hint left, hints drop by exactly one and used hints rise by one, so their sum is conserved; with none, the game is unchanged; nothing else changes |
| GameManager.UseHintSound | mahes-azure-quest-main/src/lib/gameManager.ts:171-186 | a sound game stays sound |
| GameManager.InRange | mahes-azure-quest-main/src/lib/gameManager.ts:122 | only slot numbers 1..10 give a slot, and the slot is the zero-based index |
| GameManager.TokenSlot | mahes-azure-quest-main/src/lib/gameManager.ts:120-134 | a token's slot, when it has one, is below 10 |
| GameManager.SetSlot | mahes-azure-quest-main/src/lib/gameManager.ts:123-130 | the track is padded with unset slots up to the index, that slot is set, and every other slot keeps its value |
| GameManager.SetSlotIdempotent | mahes-azure-quest-main/src/lib/gameManager.ts:123-130 | setting a slot twice is setting it once |
| GameManager.SetSlotCount | mahes-azure-quest-main/src/lib/gameManager.ts:123-130 | setting a slot raises the count by one if it was unset, else not at all |
| GameManager.AddFragment | mahes-azure-quest-main/src/lib/gameManager.ts:117-147 | only the fragment tracks change; an unreadable or out-of-range token changes nothing; otherwise the token's slot on its track is set and the other track is untouched |
| GameManager.AddFragmentIdempotent | mahes-azure-quest-main/src/lib/gameManager.ts:117-147 | granting the same token twice is granting it once |
| GameManager.TokenSlotOfNumber | mahes-azure-quest-main/src/lib/gameManager.ts:120-134 | `fragment_<track>_<n>` names slot n−1 of that track for n in 1..10, and no slot otherwise |
| GameManager.AddNumberedFragment | mahes-azure-quest-main/src/lib/gameManager.ts:117-147 | granting slot n (1..10) sets it, grows the track to n if it was shorter, and keeps every other slot and the other track |
| GameManager.SashTenGrowsTrack | mahes-azure-quest-main/src/lib/gameManager.ts:132-143 | on a new game, `fragment_sash_10` grows the sash track to 10 slots |
| GameManager.AddFragmentCount | mahes-azure-quest-main/src/lib/gameManager.ts:117-147 | a grant raises the collected total by at most one and keeps a sound game sound |
| GameManager.NewEntry | mahes-azure-quest-main/src/lib/gameManager.ts:191-200 | the stored entry takes the caller's fields and the given id, but its fragment counts come from the saved game, or are 0 without one |
| GameManager.SaveToLeaderboard | mahes-azure-quest-main/src/lib/gameManager.ts:188-211 | the list written back is `Ranking.Record` of the stored list and the new entry: sorted, drawn from the old list plus the new entry, holding the new entry with room and exactly 50 entries on a full board; `Ranking.RecordKeepsTheBest` and `Ranking.FullBoardDropsLowest` state which entries are kept |
| GameManager.SaveIgnoresReportedFragments | mahes-azure-quest-main/src/lib/gameManager.ts:191-199 | the fragment counts the caller reports make no difference to the stored list |
| RegionMap.TableIsOneToOne | mahes-azure-quest-main/src/components/game/RegionMap.tsx:14-47 | the table has four rows with ids 1..4 in order, each of 5 challenges, and distinct ids name distinct regions |
| RegionMap.NameOf | mahes-azure-quest-main/src/components/game/RegionMap.tsx:14-47 | ids 1..4, and only those, name a region, as in the table |
| RegionMap.CountFor | mahes-azure-quest-main/src/components/game/RegionMap.tsx:54-60 | the number of completed ids that count for a region is at most the number of ids |
| RegionMap.CompletedStaysCompleted | mahes-azure-quest-main/src/components/game/RegionMap.tsx:54-60 | completing another question never un-completes a region |
| RegionMap.RepeatsCount | mahes-azure-quest-main/src/components/game/RegionMap.tsx:54-60 | five copies of one counting id complete a region: repeats are counted |
| RegionMap.IdCountsByContainment | mahes-azure-quest-main/src/components/game/RegionMap.tsx:57 | an id such as `q010` counts for region 1 through substring matching |
| RegionMap.BadgesOf | mahes-azure-quest-main/src/components/game/RegionMap.tsx:111-128 | "done" exactly when completed, "locked" exactly when not unlocked, "current" exactly when current, unlocked and not completed |
| RegionMap.OneCurrentBadge | mahes-azure-quest-main/src/components/game/RegionMap.tsx:123 | at most one region carries the current badge |
| RegionMap.Click | mahes-azure-quest-main/src/components/game/RegionMap.tsx:98 | a card passes its id to the page exactly when its region is unlocked |
| RegionMap.IsUnlocked | mahes-azure-quest-main/src/components/game/RegionMap.tsx:50-52 | `unlockedRegions.includes(id)`; `BadgesOf` and `Click` state that it decides the locked badge and the click |
| RegionMap.IsCompleted | mahes-azure-quest-main/src/components/game/RegionMap.tsx:54-60 | at least the region's challenge count of completed ids count for it; `CompletedStaysCompleted` shows completion is never lost, `RepeatsCount` that repeats count |
| RegionMap.IsCurrent | mahes-azure-quest-main/src/components/game/RegionMap.tsx:62-64 | the region is the progress's current one; `OneCurrentBadge` shows at most one region carries the current badge |
| ChallengeScreen.Mount | mahes-azure-quest-main/src/components/game/ChallengeScreen.tsx:20-23 | a fresh screen: nothing selected, the full time limit, the hint panel closed at index 0 |
| ChallengeScreen.Tick | mahes-azure-quest-main/src/components/game/ChallengeScreen.tsx:25-39 | with limit 0 nothing changes; otherwise a time left above 1 goes down by one second and a time left of 1 or less becomes 0 |
| ChallengeScreen.TicksCountDown | mahes-azure-quest-main/src/components/game/ChallengeScreen.tsx:25-39 | after n ticks a timed question has max(t − n, 0) seconds left |
| ChallengeScreen.UntimedIsTimeUp | mahes-azure-quest-main/src/components/game/ChallengeScreen.tsx:173-178 | a question with time limit 0 shows the time-up warning from mount, however many ticks pass |
| ChallengeScreen.Clock | mahes-azure-quest-main/src/components/game/ChallengeScreen.tsx:76-83 | the clock shows exactly for timed questions |
| ChallengeScreen.ClockSplitsMinutes | mahes-azure-quest-main/src/components/game/ChallengeScreen.tsx:80 | the clock's two numbers are the whole minutes and the remaining seconds |
| ChallengeScreen.PressHint | mahes-azure-quest-main/src/components/game/ChallengeScreen.tsx:41-47 | a press spends a hint exactly when one is available and the question has hints; it opens the panel and moves the index on by one, stopping at the last hint |
| ChallengeScreen.PressKeepsReachable | mahes-azure-quest-main/src/components/game/ChallengeScreen.tsx:162 | presses through the enabled button keep the index in range and at least 1 while the panel is open |
| ChallengeScreen.MountIsReachable | mahes-azure-quest-main/src/components/game/ChallengeScreen.tsx:20-23 | a fresh screen's hint state is reachable |
| ChallengeScreen.FirstHintNeverShown | mahes-azure-quest-main/src/components/game/ChallengeScreen.tsx:111-115 | in a reachable hint state the first hint is never the one displayed |
| ChallengeScreen.SingleHintNeverEnabled | mahes-azure-quest-main/src/components/game/ChallengeScreen.tsx:162 | with exactly one hint the button is disabled |
| ChallengeScreen.HintButtonEnabled | mahes-azure-quest-main/src/components/game/ChallengeScreen.tsx:158-162 | the button is shown for questions with hints and enabled unless no hint is left or the last hint is reached; `PressKeepsReachable` and `SingleHintNeverEnabled` state what that guard keeps |
| ChallengeScreen.Choose | mahes-azure-quest-main/src/components/game/ChallengeScreen.tsx:123 | clicking an option selects its id and changes nothing else |
| ChallengeScreen.Submit | mahes-azure-quest-main/src/components/game/ChallengeScreen.tsx:49-53 | an answer goes to the page exactly when a non-empty id is selected, and it is that id |
| ChallengeScreen.NothingToSubmitAtMount | mahes-azure-quest-main/src/components/game/ChallengeScreen.tsx:152 | a fresh screen has nothing to submit |
| PlayerSetup.Check | mahes-azure-quest-main/src/components/game/PlayerSetup.tsx:23-34 | too short exactly below 3 code units; too long exactly above 15; bad characters exactly when in range with a character outside `[a-zA-Z0-9_\s]`; accepted otherwise, unchanged |
| PlayerSetup.AcceptedNameIsStable | mahes-azure-quest-main/src/components/game/PlayerSetup.tsx:22-37 | an accepted name is at least three characters long (every allowed character is one UTF-16 code unit), has no white space at either end, and is accepted again unchanged |
| PlayerSetup.NewForm | mahes-azure-quest-main/src/components/game/PlayerSetup.tsx:14-17 | a fresh form: empty name, `avatar1`, adventure, no message |
| PlayerSetup.EditName | mahes-azure-quest-main/src/components/game/PlayerSetup.tsx:65-68 | typing replaces the name, clears the message, and keeps avatar and difficulty |
| PlayerSetup.ChooseAvatar | mahes-azure-quest-main/src/components/game/PlayerSetup.tsx:90 | clicking an avatar selects it and leaves name, difficulty and message alone |
| PlayerSetup.ChooseDifficulty | mahes-azure-quest-main/src/components/game/PlayerSetup.tsx:113 | picking a difficulty selects it and leaves name, avatar and message alone |
| PlayerSetup.ChoicesReachTheProfile | mahes-azure-quest-main/src/components/game/PlayerSetup.tsx:36-40 | the avatar and difficulty last chosen are the ones the completed profile carries, and choosing them never changes whether the name is accepted |
| PlayerSetup.Submit | mahes-azure-quest-main/src/components/game/PlayerSetup.tsx:19-41 | a profile comes out exactly when the trimmed name is accepted, and it carries the trimmed name, avatar and difficulty; otherwise the failed check's message is set |
| PlayerSetup.CompletedNameNonEmpty | mahes-azure-quest-main/src/components/game/PlayerSetup.tsx:36-40 | a completed profile has a non-empty name |
| PlayerSetup.EmptyNameTooShort | mahes-azure-quest-main/src/components/game/PlayerSetup.tsx:23-25 | submitting the fresh form is rejected as too short |
| GameHud.KarmaTone | mahes-azure-quest-main/src/components/game/GameHUD.tsx:19-23 | success exactly from 70, gold exactly in 40..69, destructive exactly below 40 |
| GameHud.ToneFollowsEnding | mahes-azure-quest-main/src/components/game/GameHUD.tsx:19-23 | the colour band is the ending a run with every fragment would get |
| GameHud.Hearts | mahes-azure-quest-main/src/components/game/GameHUD.tsx:25-28 | `Math.ceil(karma / 10)`: the least h with karma ≤ 10h |
| GameHud.Bars | mahes-azure-quest-main/src/components/game/GameHUD.tsx:72-81 | ten bars; bar i is filled exactly when i is below the heart count |
| GameHud.BarsShowHearts | mahes-azure-quest-main/src/components/game/GameHUD.tsx:72-81 | for karma in 0..100 the number of filled bars is the heart count, between 0 and 10 |
| GameHud.Counters | mahes-azure-quest-main/src/components/game/GameHUD.tsx:15-16 | the counters are the track counts, bounded by the track lengths |
| GameHud.DenominatorsOfNewGame | mahes-azure-quest-main/src/components/game/GameHUD.tsx:110-115 | the fixed denominators 10 and 9 are the track lengths of a new game |
| GameHud.SashCanExceedDenominator | mahes-azure-quest-main/src/components/game/GameHUD.tsx:113-116 | a full sash track plus `fragment_sash_10` counts 10 over the denominator 9 |
| EndingScreen.ConfettiForGoodRuns | mahes-azure-quest-main/src/components/game/EndingScreen.tsx:53-54 | confetti falls exactly for a run with every fragment and karma of at least 70 |
| EndingScreen.ShowConfetti | mahes-azure-quest-main/src/components/game/EndingScreen.tsx:54 | confetti for the good ending only; `ConfettiForGoodRuns` states which runs get it |
| EndingScreen.KarmaTone | mahes-azure-quest-main/src/components/game/EndingScreen.tsx:132-134 | the stats panel's karma colour agrees with the HUD's |
| EndingScreen.Show | mahes-azure-quest-main/src/pages/Index.tsx:331-347 | the screen's ending is the calculated one, confetti exactly for good, fragment counts summing to the game's total, the HUD's karma colour |
| EndingScreen.ShownTimeReadsBack | mahes-azure-quest-main/src/components/game/EndingScreen.tsx:56-65 | the time shown reads back as the recorded play time |
| LeaderboardView.RankIcon | mahes-azure-quest-main/src/components/game/Leaderboard.tsx:30-35 | ranks 1, 2 and 3, and only they, get an icon |
| LeaderboardView.RankIconsDistinct | mahes-azure-quest-main/src/components/game/Leaderboard.tsx:30-35 | the three icons differ |
| LeaderboardView.BadgeOf | mahes-azure-quest-main/src/components/game/Leaderboard.tsx:37-44 | the hero badge exactly for `good`, the unfinished badge exactly for `bad`, the neutral badge for any other text |
| LeaderboardView.BadgeOfLabel | mahes-azure-quest-main/src/components/game/Leaderboard.tsx:37-44 | each stored ending text gets that ending's badge |
| LeaderboardView.RowOf | mahes-azure-quest-main/src/components/game/Leaderboard.tsx:73-94 | row rank is position plus one; highlighted exactly for ranks up to 3, which are exactly the rows with an icon |
| LeaderboardView.View | mahes-azure-quest-main/src/components/game/Leaderboard.tsx:66-75 | the empty state exactly for an empty list; otherwise one row per entry, in stored order, with its rank and name |
| LeaderboardView.TopThree | mahes-azure-quest-main/src/components/game/Leaderboard.tsx:80-83 | exactly the first three rows are highlighted, and no two rows share an icon |
| LeaderboardView.RowTimeReadsBack | mahes-azure-quest-main/src/components/game/Leaderboard.tsx:118 | a row's time label reads back as the entry's whole minutes |
| Session.Open | mahes-azure-quest-main/src/pages/Index.tsx:18-30 | the page mounts on landing, holding the saved game if there is one, else a new game |
| Session.Pending | mahes-azure-quest-main/src/pages/Index.tsx:87-90 | a question is pending exactly when it is in the catalog, of the region, and not completed |
| Session.FirstPendingIsEarliest | mahes-azure-quest-main/src/pages/Index.tsx:123-125 | the question opened is the earliest pending one in catalog order |
| Session.PendingIgnoresOrder | mahes-azure-quest-main/src/pages/Index.tsx:87-92 | whether a region has anything pending does not depend on the shuffle |
| Session.Complete | mahes-azure-quest-main/src/pages/Index.tsx:219-236 | completion changes only the play time, set to the whole seconds since start, rounded down |
| Session.ApplyItem | mahes-azure-quest-main/src/pages/Index.tsx:145-158 | a `fragment…` item goes to `addFragment`, `hint` adds one hint, anything else and no item change nothing; stats and progress are untouched |
| Session.ApplyEffect | mahes-azure-quest-main/src/pages/Index.tsx:136-169 | an answer appends the question id to the completed list, sets score and karma as `updateScore` and `updateKarma` would, grants the option's item as `ApplyItem` does, and changes no other field |
| Session.ApplyItemReadsInventory | mahes-azure-quest-main/src/pages/Index.tsx:145-158 | the item's effect depends on the inventory alone, so the score and karma updates before it do not change it |
| Session.FindOption | mahes-azure-quest-main/src/pages/Index.tsx:131-132 | the result is the first option with the id, or none exactly when no option has it |
| Session.StartGame | mahes-azure-quest-main/src/pages/Index.tsx:39-47 | with a save, the map opens on it; without, the profile form opens fresh; storage is untouched |
| Session.CloseBoard | mahes-azure-quest-main/src/pages/Index.tsx:275-277 | closing goes to the map exactly when a player name is set, else to landing |
| Session.SubmitProfileStep | mahes-azure-quest-main/src/pages/Index.tsx:49-66 | a rejected form only shows its message; an accepted one sets the player and start time, saves that game and opens the map |
| Session.SelectRegionStep | mahes-azure-quest-main/src/pages/Index.tsx:68-126 | a region with pending questions opens the first; a finished one unlocks its locked successor, completes the run from region 4 after 20 completions using the pre-selection game, or just becomes current |
| Session.Answer | mahes-azure-quest-main/src/pages/Index.tsx:128-171 | no question or an unknown option changes nothing; otherwise the option's effect applies and the feedback dialog opens with that option |
| Session.HintStep | mahes-azure-quest-main/src/pages/Index.tsx:173-176 | with the button enabled and a hint left, the game becomes `useHint` of it and the screen advances its hint; with the button disabled nothing changes; only the game and the screen state can change |
| Session.ContinueStep | mahes-azure-quest-main/src/pages/Index.tsx:178-217 | the next pending question of the current region opens on a freshly mounted challenge screen; with none left, the run completes after 20 completions, else the map opens; progress is never changed |
| Session.RunOf | mahes-azure-quest-main/src/pages/Index.tsx:238-256 | the summary carries the game's name, score, karma and calculated ending, and the play time completion would record |
| Session.SaveRunStep | mahes-azure-quest-main/src/pages/Index.tsx:238-262 | only the stored leaderboard changes, and it becomes `saveToLeaderboard` of the run |
| Session.PlayAgainStep | mahes-azure-quest-main/src/components/game/EndingScreen.tsx:179-182 | the run is recorded first; then the page holds a new game on a fresh profile form |
| Session.Handle | mahes-azure-quest-main/src/pages/Index.tsx:279-359 | an intent the current screen does not offer changes nothing |
| Session.AutoSave | mahes-azure-quest-main/src/pages/Index.tsx:33-37 | outside landing and setup the save slot becomes the game on screen; otherwise storage is untouched |
| Session.Persists | mahes-azure-quest-main/src/pages/Index.tsx:34 | every phase but landing and setup is saved; `AutoSave` states the save that follows |
| Session.Step | mahes-azure-quest-main/src/pages/Index.tsx:33-37 | a step is the screen's handler followed by the auto-save: the page and leaderboard are the handler's, and outside landing and setup the save slot holds the game on screen |
| Session.SaveFollowsThePage | mahes-azure-quest-main/src/pages/Index.tsx:33-37 | a step that changes the save slot ends outside landing and setup, with the game on screen saved |
| Session.BoardChangesOnlyAtTheEnd | mahes-azure-quest-main/src/pages/Index.tsx:238-262 | only the two ending-screen buttons change the leaderboard |
| Session.CompletedOnlyGrows | mahes-azure-quest-main/src/pages/Index.tsx:160-167 | except resuming and starting over, the completed list only grows at its end |
| Session.UnlockOnlyBySelection | mahes-azure-quest-main/src/pages/Index.tsx:100-115 | except resuming and starting over, the unlocked list changes only when a finished, unlocked region is selected on the map with its successor locked, and then gains exactly that successor |
| Session.ContinueNeverUnlocks | mahes-azure-quest-main/src/pages/Index.tsx:178-217 | the continue button leaves the unlocked regions as they were |
| Session.FinalSelectionIsForgotten | mahes-azure-quest-main/src/pages/Index.tsx:116-119 | completing from region 4 ends the run with the old current region, in the game shown and saved |
| Session.LeaderboardDetourSkipsSetup | mahes-azure-quest-main/src/pages/Index.tsx:271-277 | a first visit through the leaderboard and then start reaches the map with a new, nameless game |
| Session.FirstStartOpensSetup | mahes-azure-quest-main/src/pages/Index.tsx:39-47 | start on empty storage opens the profile form |
| SessionInvariants.InitialGameOk | mahes-azure-quest-main/src/lib/gameManager.ts:17-52 | a new game satisfies the game invariant |
| SessionInvariants.OpenIsGood | mahes-azure-quest-main/src/pages/Index.tsx:24-30 | the page mounted over well-formed storage satisfies the invariant |
| SessionInvariants.CompleteOpenKeepsProgress | mahes-azure-quest-main/src/pages/Index.tsx:160-167 | completing an uncompleted question keeps the progress invariant |
| SessionInvariants.EffectKeepsSound | mahes-azure-quest-main/src/pages/Index.tsx:136-158 | an answer's effect keeps the numeric bounds and track shapes |
| SessionInvariants.SelectRegionKeeps | mahes-azure-quest-main/src/pages/Index.tsx:68-126 | selecting an unlocked region keeps page and storage well-formed, for any order of the catalog |
| SessionInvariants.AnswerKeeps | mahes-azure-quest-main/src/pages/Index.tsx:128-171 | answering keeps page and storage well-formed |
| SessionInvariants.HintKeeps | mahes-azure-quest-main/src/pages/Index.tsx:173-176 | a hint press keeps page and storage well-formed |
| SessionInvariants.ContinueKeeps | mahes-azure-quest-main/src/pages/Index.tsx:178-217 | continuing keeps page and storage well-formed |
| SessionInvariants.SaveRunKeeps | mahes-azure-quest-main/src/pages/Index.tsx:238-262 | saving a run keeps page and storage well-formed |
| SessionInvariants.PlayAgainKeeps | mahes-azure-quest-main/src/pages/Index.tsx:264-269 | starting over keeps page and storage well-formed |
| SessionInvariants.ProfileKeeps | mahes-azure-quest-main/src/pages/Index.tsx:49-66 | submitting the profile keeps page and storage well-formed |
| SessionInvariants.HandleKeeps | mahes-azure-quest-main/src/pages/Index.tsx:39-277 | every handler keeps page and storage well-formed |
| SessionInvariants.StepKeepsGood | mahes-azure-quest-main/src/pages/Index.tsx:33-37 | every step, with auto-save, keeps the whole invariant |
| SessionInvariants.RunKeepsGood | mahes-azure-quest-main/src/pages/Index.tsx:39-277 | every run of intents keeps the whole invariant |
| SessionInvariants.SaveIsTheGame | mahes-azure-quest-main/src/pages/Index.tsx:33-37 | in a reachable world outside landing and setup, the save slot holds the game on screen |
| SessionInvariants.SavedRunCountsTheGame | mahes-azure-quest-main/src/pages/Index.tsx:238-256 | on the ending screen the recorded entry carries the game's own fragment counts, name, score, karma and ending |
| SessionInvariants.PlayAgainRecordsFinishedRun | mahes-azure-quest-main/src/components/game/EndingScreen.tsx:179-182 | "play again" stores the finished game's entry (with room) before the reset, and leaves the finished game in the save slot |
| SessionInvariants.ShownHintIsNeverFirst | mahes-azure-quest-main/src/components/game/ChallengeScreen.tsx:111-115 | during a challenge the hint on display is the question's hint at an index of at least 1 |
| SessionInvariants.SaveRunOnEnding | mahes-azure-quest-main/src/components/game/EndingScreen.tsx:191 | one press of the save button changes only the leaderboard, which becomes `saveToLeaderboard` of the run |
| SessionInvariants.SavingTwiceStoresTwice | mahes-azure-quest-main/src/components/game/EndingScreen.tsx:191 | two presses on a board with room add two copies of the same entry |
| SessionInvariants.FullMultiset | mahes-azure-quest-main/src/lib/gameManager.ts:202-206 | below capacity the list written back is exactly the old entries plus the new one |

## Left out

- Storage is a value `Store(save, board)`. Not modelled: JSON encoding, `localStorage` failures and the errors they log, and the `timestamp` that `saveGame` writes into the saved object.
- A save loaded from storage is assumed well-formed (`SessionInvariants.StoreOk`), since nothing else writes it.
- Clocks, randomness and ids are parameters of the intents: `Date.now()`, ISO date texts, and the random part of leaderboard ids.
- `getQuestions()` shuffles with a random comparator. The shuffled catalog is a parameter of each intent that queries it, and the invariants allow any reordering of a fixed catalog. The question data file is not part of this model.
- The delayed completion calls (`setTimeout`) take effect at once. Intents arriving between the click and the delayed call are not modelled.
- Not modelled, as floating point or presentation: music and effect volumes, the challenge screen's time-bar percentage, the HUD's overall progress percentage, `toLocaleString` and date formatting.
- Not modelled, as side effects with no bearing on the game: toasts, confetti drawing, share and clipboard, animations, and the landing and feedback screens.
- Not modelled: `addFragment`'s shallow copy, which shares the track arrays with its input and so also sets the slot in the previous state's track. No modelled flow reads the previous state's tracks afterwards.
- Not modelled: the name input's `maxLength` of 15. The model lets any text be typed, so the too-long check is reachable here.
- `Numerals.ParseInt` reads digits exactly. JavaScript's loss of precision above 2^53 and its exponent forms are not modelled; only results 1..10 matter to the fragment tokens.
- Time labels are modelled for whole, non-negative second counts only. `Number#toString` exponent forms (1e21 and above) and JavaScript's truncating `%` on negative times are not modelled.
- EndingScreen.Show: requires a non-negative play time. A clock that moves backwards gives a negative time, and the label for that is not modelled.
- LeaderboardView.RowOf: an entry with a negative time gets no time label, for the same reason.
- LeaderboardView.BadgeOf: the source looks badges up as object properties, so texts such as `constructor` would find inherited members. Stored endings are always `good`, `neutral` or `bad`, and those lookups are not modelled.
- `getQuestionById`, `getLeaderboard` and `loadGame` are reads of data the model holds directly.

=== FILE: challenge_screen.dfy ===
/** The challenge screen (`ChallengeScreen.tsx`): the selected option, the
    countdown, the hint panel and the submit guard. The screen is mounted afresh
    for every question. */
module ChallengeScreen {
  import opened Wrappers
  import opened GameTypes
  import TimeFormat
  import Numerals

  /** The screen's own state. */
  datatype View = View(selected: Option<string>, timeLeft: int, showHint: bool, hintIndex: int)

  /** A freshly mounted screen: nothing selected, the full time, hint panel closed. */
  function Mount(q: Question): (v: View)
    ensures v.selected == None && v.timeLeft == q.timeLimit && !v.showHint && v.hintIndex == 0
  {
    View(None, q.timeLimit, false, 0)
  }

  // ---------------------------------------------------------------------------
  // Countdown

  /** One tick of the interval timer. A time limit of 0 starts no timer; otherwise a
      tick takes one second off, and at 1 or below sets 0 and stops. */
  function Tick(v: View, timeLimit: int): (r: View)
    ensures r == v.(timeLeft := r.timeLeft)
    ensures timeLimit == 0 ==> r == v
    ensures timeLimit != 0 ==> r.timeLeft >= 0
    ensures timeLimit != 0 && v.timeLeft <= 1 ==> r.timeLeft == 0
    ensures timeLimit != 0 && v.timeLeft > 0 ==> r.timeLeft == v.timeLeft - 1
    ensures v.timeLeft >= 0 ==> r.timeLeft <= v.timeLeft
  {
    if timeLimit == 0 then v
    else v.(timeLeft := if v.timeLeft <= 1 then 0 else v.timeLeft - 1)
  }

  /** `n` ticks in a row. */
  function Ticks(v: View, timeLimit: int, n: nat): View {
    if n == 0 then v else Tick(Ticks(v, timeLimit, n - 1), timeLimit)
  }

  /** After `n` ticks of a running timer the clock reads the time left minus `n`,
      but never less than 0. */
  lemma {:induction false} TicksCountDown(v: View, timeLimit: int, n: nat)
    requires timeLimit != 0 && v.timeLeft >= 0
    ensures Ticks(v, timeLimit, n).timeLeft == if v.timeLeft >= n then v.timeLeft - n else 0
  {
    if n > 0 {
      TicksCountDown(v, timeLimit, n - 1);
    }
  }

  /** A question with a time limit of 0 shows the time-up notice from the moment it
      appears, and its clock never moves. */
  lemma {:induction false} UntimedIsTimeUp(q: Question, n: nat)
    requires q.timeLimit == 0
    ensures TimeUp(Mount(q))
    ensures Ticks(Mount(q), q.timeLimit, n) == Mount(q)
  {
    if n > 0 {
      UntimedIsTimeUp(q, n - 1);
    }
  }

  /** The time-up notice. It only informs: nothing is submitted. */
  predicate TimeUp(v: View) {
    v.timeLeft == 0
  }

  /** The clock text shown when the question has a time limit above 0: whole
      minutes, a colon, and the seconds padded to two digits. */
  function Clock(q: Question, v: View): (shown: Option<string>)
    requires v.timeLeft >= 0
    ensures shown.Some? <==> q.timeLimit > 0
  {
    if q.timeLimit > 0 then Some(TimeFormat.ClockLabel(v.timeLeft)) else None
  }

  /** The clock reads back as minutes and seconds of the time left. */
  lemma {:induction false} ClockSplitsMinutes(q: Question, v: View)
    requires v.timeLeft >= 0 && q.timeLimit > 0
    ensures Numerals.ReadFields(Clock(q, v).value) == [v.timeLeft / 60, v.timeLeft % 60]
  {
    var t: nat := v.timeLeft;
    TimeFormat.ColonFieldsTwo(t / 60, t % 60);
  }

  // ---------------------------------------------------------------------------
  // Hints

  /** The hint button is rendered only for a question with hints. */
  predicate HintButtonShown(q: Question) {
    |q.hints| > 0
  }

  /** The button is disabled with no hint left in the inventory or once the index
      has reached the last hint. */
  predicate HintButtonEnabled(v: View, q: Question, hintsAvailable: int) {
    HintButtonShown(q) && !(hintsAvailable == 0 || v.hintIndex >= |q.hints| - 1)
  }

  /** The hint handler: with a hint in the inventory and hints on the question, the
      panel opens, the index moves on by one (stopping at the last hint), and the
      page is told to spend a hint (`used`). */
  function PressHint(v: View, q: Question, hintsAvailable: int): (r: (View, bool))
    ensures r.1 <==> hintsAvailable > 0 && |q.hints| > 0
    ensures !r.1 ==> r.0 == v
    ensures r.1 ==> r.0.selected == v.selected && r.0.timeLeft == v.timeLeft && r.0.showHint
    ensures r.1 && 0 <= v.hintIndex ==> 0 <= r.0.hintIndex < |q.hints|
    ensures r.1 && v.hintIndex < |q.hints| ==> v.hintIndex <= r.0.hintIndex
    ensures r.1 && v.hintIndex < |q.hints| - 1 ==> r.0.hintIndex == v.hintIndex + 1
  {
    if hintsAvailable > 0 && |q.hints| > 0 then
      var next := if v.hintIndex + 1 < |q.hints| - 1 then v.hintIndex + 1 else |q.hints| - 1;
      (v.(showHint := true, hintIndex := next), true)
    else (v, false)
  }

  /** The hint on display, if the panel is open. */
  function ShownHint(v: View, q: Question): Option<string>
    requires 0 <= v.hintIndex < |q.hints| || |q.hints| == 0
  {
    if v.showHint && |q.hints| > 0 then Some(q.hints[v.hintIndex]) else None
  }

  /** What hint presses through the enabled button keep: the index stays in range,
      and is 0 only while the panel is closed. */
  predicate HintsReachable(v: View, q: Question) {
    && 0 <= v.hintIndex
    && (|q.hints| > 0 ==> v.hintIndex < |q.hints|)
    && (v.showHint ==> v.hintIndex >= 1)
  }

  /** A press through the enabled button keeps `HintsReachable`; so the first hint
      of a question is never displayed, since the first press already moves the
      index from 0 to 1. */
  lemma {:induction false} PressKeepsReachable(v: View, q: Question, hintsAvailable: int)
    requires HintsReachable(v, q) && HintButtonEnabled(v, q, hintsAvailable)
    ensures HintsReachable(PressHint(v, q, hintsAvailable).0, q)
  {
  }

  lemma {:induction false} MountIsReachable(q: Question)
    ensures HintsReachable(Mount(q), q)
  {
  }

  lemma {:induction false} FirstHintNeverShown(v: View, q: Question)
    requires HintsReachable(v, q) && |q.hints| > 0 && ShownHint(v, q).Some?
    ensures v.hintIndex != 0
  {
  }

  /** A question with exactly one hint never enables the button. */
  lemma {:induction false} SingleHintNeverEnabled(v: View, q: Question, hintsAvailable: int)
    requires HintsReachable(v, q) && |q.hints| == 1
    ensures !HintButtonEnabled(v, q, hintsAvailable)
  {
  }

  // ---------------------------------------------------------------------------
  // Options and submit

  /** Clicking an option selects its id. */
  function Choose(v: View, id: string): (r: View)
    ensures r.selected == Some(id) && r == v.(selected := r.selected)
  {
    v.(selected := Some(id))
  }

  /** `handleSubmit`: the selected id goes to the page when there is one and it is
      not the empty string (which is falsy). */
  function Submit(v: View): (answer: Option<string>)
    ensures answer.Some? <==> v.selected.Some? && v.selected.value != ""
    ensures answer.Some? ==> answer == v.selected
  {
    match v.selected
    case Some(id) => if id != "" then Some(id) else None
    case None => None
  }

  /** A freshly mounted screen has nothing to submit. */
  lemma {:induction false} NothingToSubmitAtMount(q: Question)
    ensures Submit(Mount(q)) == None
  {
  }
}

=== FILE: ending_screen.dfy ===
/** The ending screen (`EndingScreen.tsx`): what it shows for a finished game. Its
    two buttons are modelled by the session: "save" records the run, "play again"
    records it and then resets. */
module EndingScreen {
  import opened GameTypes
  import GameManager
  import GameHud
  import TimeFormat
  import Numerals

  /** Confetti falls for the good ending only. */
  function ShowConfetti(e: Ending): (b: bool) {
    e == Good
  }

  /** Confetti falls exactly for a run with every fragment and karma of at least 70. */
  lemma {:induction false} ConfettiForGoodRuns(g: GameState)
    ensures ShowConfetti(GameManager.CalculateEnding(g.stats.karma, GameManager.HasAllFragments(g)))
            <==> GameManager.HasAllFragments(g) && g.stats.karma >= GameManager.GoodKarma
  {
  }

  /** The karma colour of the stats panel: the same three bands as the HUD. */
  function KarmaTone(karma: int): (t: GameHud.Tone)
    ensures t == GameHud.KarmaTone(karma)
  {
    if karma >= 70 then GameHud.Success
    else if karma >= 40 then GameHud.Gold
    else GameHud.Destructive
  }

  /** What the screen shows of a finished game. */
  datatype Summary = Summary(ending: Ending, confetti: bool, score: int, karma: int, tone: GameHud.Tone,
                             time: string, hintsUsed: int, crown: nat, sash: nat)

  /** The screen's inputs as the page computes them from the game: the ending, the
      play time in `Hj Mm Sd` form and the fragment counts. */
  function Show(g: GameState): (s: Summary)
    requires g.stats.playTime >= 0
    ensures s.confetti <==> s.ending == Good
    ensures s.ending == GameManager.CalculateEnding(g.stats.karma, GameManager.HasAllFragments(g))
    ensures s.crown + s.sash == GameManager.FragmentCount(g).total
    ensures s.tone == GameHud.KarmaTone(g.stats.karma)
  {
    var e := GameManager.CalculateEnding(g.stats.karma, GameManager.HasAllFragments(g));
    var c := GameManager.FragmentCount(g);
    Summary(e, ShowConfetti(e), g.stats.score, g.stats.karma, KarmaTone(g.stats.karma),
            TimeFormat.EndingFormatTime(g.stats.playTime), g.stats.hintsUsed, c.crown, c.sash)
  }

  /** The play time label reads back as the recorded seconds. */
  lemma {:induction false} ShownTimeReadsBack(g: GameState)
    requires g.stats.playTime >= 0
    ensures TimeFormat.Sexagesimal(Numerals.ReadFields(Show(g).time)) == g.stats.playTime
  {
    TimeFormat.EndingFormatTimeReadsBack(g.stats.playTime);
  }
}

=== FILE: game_hud.dfy ===
/** The heads-up display (`GameHUD.tsx`): fragment counters, the karma colour and
    the ten karma bars. */
module GameHud {
  import opened GameTypes
  import GameManager
  import Numerals

  /** The three colour bands of karma. */
  datatype Tone = Success | Gold | Destructive

  /** `getKarmaColor`. */
  function KarmaTone(karma: int): (t: Tone)
    ensures t == Success <==> karma >= 70
    ensures t == Gold <==> 40 <= karma < 70
    ensures t == Destructive <==> karma < 40
  {
    if karma >= 70 then Success
    else if karma >= 40 then Gold
    else Destructive
  }

  /** The karma colour follows the ending a run with every fragment would get. */
  lemma {:induction false} ToneFollowsEnding(karma: int)
    ensures KarmaTone(karma) == Success <==> GameManager.CalculateEnding(karma, true) == Good
    ensures KarmaTone(karma) == Gold <==> GameManager.CalculateEnding(karma, true) == Neutral
    ensures KarmaTone(karma) == Destructive <==> GameManager.CalculateEnding(karma, true) == Bad
  {
  }

  /** `getKarmaHearts`: `Math.ceil(karma / 10)`. */
  function Hearts(karma: int): (h: int)
    ensures 10 * h - 10 < karma <= 10 * h
  {
    (karma + 9) / 10
  }

  /** The ten bars; bar `i` is filled when `i` is below the heart count. */
  function Bars(karma: int): (bars: seq<bool>)
    ensures |bars| == 10
    ensures forall i :: 0 <= i < 10 ==> (bars[i] <==> i < Hearts(karma))
  {
    seq(10, i => i < Hearts(karma))
  }

  /** For karma in [0, 100] the heart count lies in 0..10 and is exactly the number
      of filled bars. */
  lemma {:induction false} BarsShowHearts(karma: int)
    requires 0 <= karma <= 100
    ensures 0 <= Hearts(karma) <= 10
    ensures GameManager.CountTrue(Bars(karma)) == Hearts(karma)
  {
    LeadingTrue(Bars(karma), Hearts(karma));
  }

  /** A track whose first `m` slots are set and the rest not holds `m` set slots. */
  lemma {:induction false} LeadingTrue(s: seq<bool>, m: nat)
    requires m <= |s|
    requires forall i :: 0 <= i < |s| ==> (s[i] <==> i < m)
    ensures GameManager.CountTrue(s) == m
  {
    if s != [] {
      LeadingTrue(s[1..], if m == 0 then 0 else m - 1);
    }
  }

  /** The fraction labels under the crown and sash icons. */
  const CrownDenominator: nat := 10
  const SashDenominator: nat := 9

  /** The two counters: collected slots per track over the fixed denominators. */
  function Counters(g: GameState): (c: (nat, nat))
    ensures c.0 == GameManager.FragmentCount(g).crown && c.1 == GameManager.FragmentCount(g).sash
    ensures c.0 <= |g.inventory.fragments.crown| && c.1 <= |g.inventory.fragments.sash|
  {
    (GameManager.CountTrue(g.inventory.fragments.crown), GameManager.CountTrue(g.inventory.fragments.sash))
  }

  /** The denominators are the track sizes of a new game, but a sash track grown by
      `fragment_sash_10` can count 10 over a denominator of 9. */
  lemma {:induction false} DenominatorsOfNewGame(now: int, iso: string)
    ensures var f := GameManager.InitialState(now, iso).inventory.fragments;
            |f.crown| == CrownDenominator && |f.sash| == SashDenominator
  {
  }

  lemma {:induction false} SashCanExceedDenominator(g: GameState)
    requires g.inventory.fragments.sash == seq(9, _ => true)
    ensures Counters(GameManager.AddFragment(g, GameManager.SashPrefix + Numerals.Decimal(10))).1 == 10
  {
    var after := GameManager.AddFragment(g, GameManager.SashPrefix + Numerals.Decimal(10)).inventory.fragments.sash;
    assert |after| == 10 && forall i :: 0 <= i < |after| ==> after[i] by {
      GameManager.AddNumberedFragment(g, GameManager.Sash, 10);
      assert GameManager.PrefixOf(GameManager.Sash) == GameManager.SashPrefix;
    }
  }
}

=== FILE: game_manager.dfy ===
/** The pure state transitions of `GameManager` (`src/lib/gameManager.ts`): the
    initial state, the score, karma and hint updates, fragment tokens, fragment
    counting, the ending and the leaderboard entry. Every transition returns a new
    state and leaves the argument alone. */
module GameManager {
  import opened Wrappers
  import opened GameTypes
  import opened Numerals
  import Text
  import Ranking

  /** Slots of each track in a new game. */
  const CrownSlots: nat := 10
  const SashSlots: nat := 9
  /** Token slot numbers `addFragment` accepts run from 1 to this bound, on both tracks. */
  const SlotLimit: nat := 10

  const StartingKarma: int := 50
  const StartingHints: int := 3
  const MaxKarma: int := 100
  /** Karma at or above which a complete run ends well, and at or above which it
      ends neutrally. */
  const GoodKarma: int := 70
  const NeutralKarma: int := 40

  // ---------------------------------------------------------------------------
  // Well-formed states

  /** Every track of a state reachable from a new game: 10 crown slots, 9 sash slots
      (10 once `fragment_sash_10` has been collected). */
  predicate TracksShaped(f: Fragments) {
    |f.crown| == CrownSlots && (|f.sash| == SashSlots || |f.sash| == SlotLimit)
  }

  /** The numeric bounds every transition of this module keeps. */
  predicate Sound(g: GameState) {
    && 0 <= g.stats.karma <= MaxKarma
    && 0 <= g.stats.score
    && 0 <= g.inventory.hints
    && 0 <= g.stats.hintsUsed
    && TracksShaped(g.inventory.fragments)
  }

  // ---------------------------------------------------------------------------
  // Initial state

  /** No fragment collected: 10 crown slots and 9 sash slots, all `false`. */
  function InitialFragments(): Fragments {
    Fragments(seq(CrownSlots, _ => false), seq(SashSlots, _ => false))
  }

  /** `getInitialState`; `now` is the `Date.now()` reading and `iso` the ISO text of
      the same moment. */
  function InitialState(now: int, iso: string): GameState {
    GameState(
      "1.0.0",
      iso,
      Player("", "avatar1", Adventure),
      Progress(1, [], [1]),
      Stats(0, StartingKarma, now, 0, 0),
      Inventory(InitialFragments(), StartingHints, []),
      Settings(0.7, 0.8, map[]))
  }

  /** A new game is sound, holds no fragment, so far counts as a bad ending, and
      starts in region 1 with only region 1 open. */
  lemma {:induction false} InitialStateFacts(now: int, iso: string)
    ensures var g := InitialState(now, iso);
            && Sound(g)
            && g.stats.score == 0 && g.stats.karma == 50 && g.stats.hintsUsed == 0
            && g.inventory.hints == 3 && g.stats.startTime == now
            && g.progress.currentRegion == 1 && g.progress.unlockedRegions == [1]
            && g.progress.completedChallenges == []
            && FragmentCount(g) == Counts(0, 0, 0)
            && !HasAllFragments(g)
            && CalculateEnding(g.stats.karma, HasAllFragments(g)) == Bad
  {
    var g := InitialState(now, iso);
    NoneTrue(g.inventory.fragments.crown);
    NoneTrue(g.inventory.fragments.sash);
    assert !g.inventory.fragments.crown[0];
  }

  lemma {:induction false} NoneTrue(s: seq<bool>)
    requires forall i :: 0 <= i < |s| ==> !s[i]
    ensures CountTrue(s) == 0
  {
    if s != [] {
      NoneTrue(s[1..]);
    }
  }

  // ---------------------------------------------------------------------------
  // Fragment counting

  /** `track.filter(f => f).length`. */
  function CountTrue(s: seq<bool>): (n: nat)
    ensures n <= |s|
    ensures n == |s| <==> forall i :: 0 <= i < |s| ==> s[i]
  {
    if s == [] then 0
    else
      assert forall i :: 1 <= i < |s| ==> s[i] == s[1..][i - 1];
      (if s[0] then 1 else 0) + CountTrue(s[1..])
  }

  /** `track.every(f => f)`. */
  predicate AllTrue(s: seq<bool>) {
    forall i :: 0 <= i < |s| ==> s[i]
  }

  /** `hasAllFragments`: every slot of both tracks is collected. */
  function HasAllFragments(g: GameState): (b: bool)
    ensures b <==> CountTrue(g.inventory.fragments.crown) == |g.inventory.fragments.crown|
                   && CountTrue(g.inventory.fragments.sash) == |g.inventory.fragments.sash|
  {
    AllTrue(g.inventory.fragments.crown) && AllTrue(g.inventory.fragments.sash)
  }

  /** What `getFragmentCount` returns. */
  datatype Counts = Counts(crown: nat, sash: nat, total: nat)

  /** `getFragmentCount`: collected slots per track and their sum. */
  function FragmentCount(g: GameState): (c: Counts)
    ensures c.total == c.crown + c.sash
    ensures c.crown <= |g.inventory.fragments.crown| && c.sash <= |g.inventory.fragments.sash|
  {
    var crown := CountTrue(g.inventory.fragments.crown);
    var sash := CountTrue(g.inventory.fragments.sash);
    Counts(crown, sash, crown + sash)
  }

  /** All fragments are held exactly when the total reaches the number of slots. */
  lemma {:induction false} AllFragmentsIsFullCount(g: GameState)
    ensures HasAllFragments(g) <==>
            FragmentCount(g).total == |g.inventory.fragments.crown| + |g.inventory.fragments.sash|
  {
  }

  // ---------------------------------------------------------------------------
  // Ending

  /** `calculateEnding`. */
  function CalculateEnding(karma: int, hasAllFragments: bool): (e: Ending)
    ensures e == Good <==> hasAllFragments && karma >= GoodKarma
    ensures e == Neutral <==> hasAllFragments && NeutralKarma <= karma < GoodKarma
    ensures e == Bad <==> !hasAllFragments || karma < NeutralKarma
  {
    if !hasAllFragments then Bad
    else if karma >= 70 then Good
    else if karma >= 40 then Neutral
    else Bad
  }

  /** Bad < neutral < good. */
  function EndingRank(e: Ending): nat {
    match e
    case Bad => 0
    case Neutral => 1
    case Good => 2
  }

  /** More karma, or collecting the missing fragments, never worsens the ending. */
  lemma {:induction false} EndingMonotone(k1: int, k2: int, a1: bool, a2: bool)
    requires k1 <= k2 && (a1 ==> a2)
    ensures EndingRank(CalculateEnding(k1, a1)) <= EndingRank(CalculateEnding(k2, a2))
  {
  }

  /** The thresholds sit exactly at 70 and 40. */
  lemma {:induction false} EndingBoundaries()
    ensures CalculateEnding(70, true) == Good && CalculateEnding(69, true) == Neutral
    ensures CalculateEnding(40, true) == Neutral && CalculateEnding(39, true) == Bad
    ensures forall k :: CalculateEnding(k, false) == Bad
  {
  }

  // ---------------------------------------------------------------------------
  // Score, karma and hints

  /** `updateScore`: the score moves by `change` and stops at 0. */
  function UpdateScore(g: GameState, change: int): (r: GameState)
    ensures r.stats.score >= 0
    ensures r.stats.score == g.stats.score + change || (r.stats.score == 0 && g.stats.score + change < 0)
    ensures r == g.(stats := g.stats.(score := r.stats.score))
  {
    g.(stats := g.stats.(score := if g.stats.score + change < 0 then 0 else g.stats.score + change))
  }

  /** A larger change never gives a smaller score, and a sound state stays sound. */
  lemma {:induction false} UpdateScoreMonotone(g: GameState, a: int, b: int)
    requires a <= b
    ensures UpdateScore(g, a).stats.score <= UpdateScore(g, b).stats.score
    ensures Sound(g) ==> Sound(UpdateScore(g, a))
  {
  }

  /** Clamping happens per call, so two calls are not one call with the summed
      change: from 0, a loss of 5 then a gain of 10 ends at 10, not at 5. */
  lemma {:induction false} ScoreClampsPerCall(g: GameState)
    requires g.stats.score == 0
    ensures UpdateScore(UpdateScore(g, -5), 10).stats.score == 10
    ensures UpdateScore(g, -5 + 10).stats.score == 5
  {
  }

  /** Distance on the integer line. */
  function Dist(a: int, b: int): nat {
    if a <= b then b - a else a - b
  }

  /** `v` is a point of [lo, hi] closest to `x`. */
  predicate Nearest(v: int, lo: int, hi: int, x: int) {
    lo <= v <= hi && forall k :: lo <= k <= hi ==> Dist(v, x) <= Dist(k, x)
  }

  /** `updateKarma`: karma moves by `change` and is held to [0, 100]. */
  function UpdateKarma(g: GameState, change: int): (r: GameState)
    ensures 0 <= r.stats.karma <= MaxKarma
    ensures Nearest(r.stats.karma, 0, MaxKarma, g.stats.karma + change)
    ensures r == g.(stats := g.stats.(karma := r.stats.karma))
  {
    var k := g.stats.karma + change;
    g.(stats := g.stats.(karma := if k > 100 then 100 else if k < 0 then 0 else k))
  }

  /** Inside the range the change applies exactly, and a sound state stays sound. */
  lemma {:induction false} UpdateKarmaExact(g: GameState, change: int)
    requires 0 <= g.stats.karma + change <= MaxKarma
    ensures UpdateKarma(g, change).stats.karma == g.stats.karma + change
  {
    var r := UpdateKarma(g, change);
    assert Dist(g.stats.karma + change, g.stats.karma + change) == 0;
  }

  lemma {:induction false} UpdateKarmaSound(g: GameState, change: int)
    requires Sound(g)
    ensures Sound(UpdateKarma(g, change))
  {
  }

  /** `useHint`: a hint moves from the inventory to the used count, if there is one. */
  function UseHint(g: GameState): (r: GameState)
    ensures r.inventory.hints + r.stats.hintsUsed == g.inventory.hints + g.stats.hintsUsed
    ensures r != g <==> g.inventory.hints > 0
    ensures g.inventory.hints > 0 ==> r.inventory.hints == g.inventory.hints - 1
    ensures g.inventory.hints >= 0 ==> r.inventory.hints >= 0
    ensures r.inventory.hints <= g.inventory.hints
    ensures r == g.(inventory := g.inventory.(hints := r.inventory.hints),
                    stats := g.stats.(hintsUsed := r.stats.hintsUsed))
  {
    if g.inventory.hints > 0 then
      g.(inventory := g.inventory.(hints := g.inventory.hints - 1),
         stats := g.stats.(hintsUsed := g.stats.hintsUsed + 1))
    else g
  }

  lemma {:induction false} UseHintSound(g: GameState)
    requires Sound(g)
    ensures Sound(UseHint(g))
  {
  }

  // ---------------------------------------------------------------------------
  // Fragment tokens

  datatype Track = Crown | Sash

  /** The two token prefixes. */
  const CrownPrefix: string := "fragment_crown_"
  const SashPrefix: string := "fragment_sash_"

  /** The slot number `parseInt(token.split('_')[2])` reads after a prefix. */
  function SlotNumber(token: string, prefix: string): Option<int>
    requires |prefix| <= |token|
  {
    ParseInt(Text.UntilChar(token[|prefix|..], '_'))
  }

  /** A slot number read from a token, made zero-based, if it lies in 1..10. */
  function InRange(track: Track, n: Option<int>): (r: Option<(Track, nat)>)
    ensures r.Some? <==> n.Some? && 1 <= n.value <= SlotLimit
    ensures r.Some? ==> r.value == (track, n.value - 1)
  {
    match n
    case Some(v) => if 1 <= v <= SlotLimit then Some((track, v - 1)) else None
    case None => None
  }

  /** The zero-based slot a token names, if `addFragment` acts on it: the crown
      prefix is tested first, and the number must lie in 1..10 on either track. */
  function TokenSlot(token: string): (r: Option<(Track, nat)>)
    ensures r.Some? ==> r.value.1 < SlotLimit
  {
    if Text.StartsWith(token, CrownPrefix) then InRange(Crown, SlotNumber(token, CrownPrefix))
    else if Text.StartsWith(token, SashPrefix) then InRange(Sash, SlotNumber(token, SashPrefix))
    else None
  }

  /** Slot `i` of a track set, the track first padded with `false` up to `i + 1`
      slots when it is shorter. */
  function SetSlot(t: seq<bool>, i: nat): (r: seq<bool>)
    ensures |r| == if i < |t| then |t| else i + 1
    ensures r[i]
    ensures forall j :: 0 <= j < |r| && j != i ==> r[j] == (j < |t| && t[j])
  {
    if i < |t| then t[i := true]
    else (t + seq(i + 1 - |t|, _ => false))[i := true]
  }

  /** Setting a set slot again changes nothing. */
  lemma {:induction false} SetSlotIdempotent(t: seq<bool>, i: nat)
    ensures SetSlot(SetSlot(t, i), i) == SetSlot(t, i)
  {
  }

  /** Setting a slot counts one more collected fragment when it was empty or beyond
      the end, and the same number otherwise. */
  lemma {:induction false} SetSlotCount(t: seq<bool>, i: nat)
    ensures CountTrue(SetSlot(t, i)) == CountTrue(t) + (if i < |t| && t[i] then 0 else 1)
  {
    if i < |t| {
      SetCount(t, i);
    } else {
      var padded := t + seq(i + 1 - |t|, _ => false);
      CountAppend(t, seq(i + 1 - |t|, _ => false));
      NoneTrue(seq(i + 1 - |t|, _ => false));
      SetCount(padded, i);
    }
  }

  lemma {:induction false} SetCount(t: seq<bool>, i: nat)
    requires i < |t|
    ensures CountTrue(t[i := true]) == CountTrue(t) + (if t[i] then 0 else 1)
  {
    if i > 0 {
      assert t[i := true][1..] == t[1..][i - 1 := true];
      SetCount(t[1..], i - 1);
    } else {
      assert t[i := true][1..] == t[1..];
    }
  }

  lemma {:induction false} CountAppend(a: seq<bool>, b: seq<bool>)
    ensures CountTrue(a + b) == CountTrue(a) + CountTrue(b)
  {
    if a == [] {
      assert a + b == b;
    } else {
      assert (a + b)[1..] == a[1..] + b;
      CountAppend(a[1..], b);
    }
  }

  /** The track a slot belongs to, and the other one. */
  function TrackOf(f: Fragments, track: Track): seq<bool> {
    if track == Crown then f.crown else f.sash
  }

  function Other(track: Track): Track {
    if track == Crown then Sash else Crown
  }

  /** Slot `i` of one track set; the other track is kept. */
  function SetTrack(f: Fragments, track: Track, i: nat): (r: Fragments)
    ensures TrackOf(r, track) == SetSlot(TrackOf(f, track), i)
    ensures TrackOf(r, Other(track)) == TrackOf(f, Other(track))
  {
    if track == Crown then f.(crown := SetSlot(f.crown, i)) else f.(sash := SetSlot(f.sash, i))
  }

  /** `addFragment`: the slot a token names is set on its track; any other token,
      and a slot number outside 1..10, leaves the state unchanged. */
  function AddFragment(g: GameState, token: string): (r: GameState)
    ensures r == g.(inventory := g.inventory.(fragments := r.inventory.fragments))
    ensures TokenSlot(token).None? ==> r == g
    ensures TokenSlot(token).Some? ==>
              var track := TokenSlot(token).value.0;
              && TrackOf(r.inventory.fragments, track) == SetSlot(TrackOf(g.inventory.fragments, track), TokenSlot(token).value.1)
              && TrackOf(r.inventory.fragments, Other(track)) == TrackOf(g.inventory.fragments, Other(track))
  {
    var slot := TokenSlot(token);
    if slot.None? then g
    else g.(inventory := g.inventory.(fragments := SetTrack(g.inventory.fragments, slot.value.0, slot.value.1)))
  }

  /** Adding the same token twice is adding it once. */
  lemma {:induction false} AddFragmentIdempotent(g: GameState, token: string)
    ensures AddFragment(AddFragment(g, token), token) == AddFragment(g, token)
  {
    var slot := TokenSlot(token);
    if slot.Some? {
      var f := g.inventory.fragments;
      var once := SetTrack(f, slot.value.0, slot.value.1);
      SetSlotIdempotent(TrackOf(f, slot.value.0), slot.value.1);
      assert SetTrack(once, slot.value.0, slot.value.1) == once;
    }
  }

  /** A well-formed token: a prefix followed by the decimal slot number. */
  lemma {:induction false} TokenReadsSlot(prefix: string, n: nat)
    requires prefix == CrownPrefix || prefix == SashPrefix
    ensures SlotNumber(prefix + Decimal(n), prefix) == Some(n)
  {
    var d := Decimal(n);
    assert (prefix + d)[|prefix|..] == d;
    UntilNoSep(d);
    ParseIntReadsDecimal(n);
  }

  lemma {:induction false} UntilNoSep(d: string)
    requires forall k :: 0 <= k < |d| ==> IsDecimalDigit(d[k])
    ensures Text.UntilChar(d, '_') == d
  {
    assert '_' !in d by {
      forall k | 0 <= k < |d| ensures d[k] != '_' {
        assert IsDecimalDigit(d[k]);
      }
    }
  }

  /** `fragment_crown_<n>` and `fragment_sash_<n>` for n in 1..10 name slot n - 1 of
      their track; numbers outside that range name nothing. */
  lemma {:induction false} TokenSlotOfNumber(n: nat)
    ensures TokenSlot(CrownPrefix + Decimal(n)) == if 1 <= n <= SlotLimit then Some((Crown, n - 1)) else None
    ensures TokenSlot(SashPrefix + Decimal(n)) == if 1 <= n <= SlotLimit then Some((Sash, n - 1)) else None
  {
    CrownTokenSlot(n);
    SashTokenSlot(n);
  }

  lemma {:induction false} CrownTokenSlot(n: nat)
    ensures TokenSlot(CrownPrefix + Decimal(n)) == if 1 <= n <= SlotLimit then Some((Crown, n - 1)) else None
  {
    TokenReadsSlot(CrownPrefix, n);
    PrefixedStartsWith(CrownPrefix, Decimal(n));
    CrownSlotOfReading(CrownPrefix + Decimal(n), n);
  }

  lemma {:induction false} SashTokenSlot(n: nat)
    ensures TokenSlot(SashPrefix + Decimal(n)) == if 1 <= n <= SlotLimit then Some((Sash, n - 1)) else None
  {
    TokenReadsSlot(SashPrefix, n);
    PrefixedStartsWith(SashPrefix, Decimal(n));
    SashIsNotCrown(SashPrefix + Decimal(n));
    SashSlotOfReading(SashPrefix + Decimal(n), n);
  }

  /** The slot a crown token names, once its number is known. */
  lemma {:induction false} CrownSlotOfReading(token: string, n: int)
    requires Text.StartsWith(token, CrownPrefix)
    requires SlotNumber(token, CrownPrefix) == Some(n)
    ensures TokenSlot(token) == if 1 <= n <= SlotLimit then Some((Crown, n - 1)) else None
  {
    InRangeOfReading(Crown, SlotNumber(token, CrownPrefix), n);
  }

  /** The slot a sash token names, once its number is known. */
  lemma {:induction false} SashSlotOfReading(token: string, n: int)
    requires !Text.StartsWith(token, CrownPrefix) && Text.StartsWith(token, SashPrefix)
    requires SlotNumber(token, SashPrefix) == Some(n)
    ensures TokenSlot(token) == if 1 <= n <= SlotLimit then Some((Sash, n - 1)) else None
  {
    InRangeOfReading(Sash, SlotNumber(token, SashPrefix), n);
  }

  /** The range test on a number already read. */
  lemma {:induction false} InRangeOfReading(track: Track, x: Option<int>, n: int)
    requires x == Some(n)
    ensures InRange(track, x) == if 1 <= n <= SlotLimit then Some((track, n - 1)) else None
  {
  }

  lemma {:induction false} PrefixedStartsWith(p: string, d: string)
    ensures Text.StartsWith(p + d, p)
  {
    assert (p + d)[..|p|] == p;
  }

  /** A sash token fails the crown test, which comes first: the two prefixes
      differ at position 9. */
  lemma {:induction false} SashIsNotCrown(s: string)
    requires Text.StartsWith(s, SashPrefix)
    ensures !Text.StartsWith(s, CrownPrefix)
  {
    assert s[9] == SashPrefix[9] == 's';
    if |CrownPrefix| <= |s| {
      assert s[..|CrownPrefix|][9] == s[9];
    }
  }

  /** The token prefix of a track. */
  function PrefixOf(track: Track): string {
    if track == Crown then CrownPrefix else SashPrefix
  }

  /** The token for slot number `n` of a track sets slot n - 1, makes the track at
      least n slots long, and changes no other slot and not the other track; a
      number outside 1..10 changes nothing. */
  lemma {:induction false} AddNumberedFragment(g: GameState, track: Track, n: nat)
    ensures var r := AddFragment(g, PrefixOf(track) + Decimal(n));
            var before := TrackOf(g.inventory.fragments, track);
            var after := TrackOf(r.inventory.fragments, track);
            if 1 <= n <= SlotLimit then
              && |after| == (if n <= |before| then |before| else n)
              && after[n - 1]
              && (forall j :: 0 <= j < |after| && j != n - 1 ==> after[j] == (j < |before| && before[j]))
              && TrackOf(r.inventory.fragments, Other(track)) == TrackOf(g.inventory.fragments, Other(track))
            else r == g
  {
    TokenSlotOfNumber(n);
    var token := PrefixOf(track) + Decimal(n);
    if 1 <= n <= SlotLimit {
      assert TokenSlot(token) == Some((track, n - 1));
      var after := TrackOf(AddFragment(g, token).inventory.fragments, track);
      SetSlotNumber(TrackOf(g.inventory.fragments, track), after, n);
    }
  }

  /** Slot number n (one-based) set on a track, in the terms of `AddNumberedFragment`. */
  lemma {:induction false} SetSlotNumber(before: seq<bool>, after: seq<bool>, n: nat)
    requires 1 <= n && after == SetSlot(before, n - 1)
    ensures |after| == (if n <= |before| then |before| else n)
    ensures after[n - 1]
    ensures forall j :: 0 <= j < |after| && j != n - 1 ==> after[j] == (j < |before| && before[j])
  {
  }

  /** Collecting `fragment_sash_10` grows the 9-slot sash track to 10 slots. */
  lemma {:induction false} SashTenGrowsTrack(now: int, iso: string)
    ensures |AddFragment(InitialState(now, iso), SashPrefix + Decimal(10)).inventory.fragments.sash| == 10
  {
    TokenSlotOfNumber(10);
  }

  /** `addFragment` changes the collected total by at most one and keeps a sound
      state sound. */
  lemma {:induction false} AddFragmentCount(g: GameState, token: string)
    ensures var before := FragmentCount(g).total;
            var after := FragmentCount(AddFragment(g, token)).total;
            before <= after <= before + 1
    ensures Sound(g) ==> Sound(AddFragment(g, token))
  {
    var slot := TokenSlot(token);
    if slot.Some? {
      SetSlotCount(TrackOf(g.inventory.fragments, slot.value.0), slot.value.1);
    }
  }

  // ---------------------------------------------------------------------------
  // Leaderboard

  /** The entry `saveToLeaderboard` stores: the caller's summary with the given `id`
      and with fragment counts read from the saved game, or from a new game when
      nothing is saved. The caller's own counts are discarded. */
  function NewEntry(saved: Option<GameState>, run: RunSummary, id: string): (e: LeaderboardEntry)
    ensures e.fragments.crown == (if saved.Some? then FragmentCount(saved.value).crown else 0)
    ensures e.fragments.sash == (if saved.Some? then FragmentCount(saved.value).sash else 0)
    ensures e.id == id && e.name == run.name && e.score == run.score && e.karma == run.karma
    ensures e.time == run.time && e.date == run.date && e.ending == run.ending
  {
    InitialStateFacts(0, "");
    var c := if saved.Some? then FragmentCount(saved.value) else FragmentCount(InitialState(0, ""));
    LeaderboardEntry(id, run.name, run.score, run.karma, run.time, run.date, run.ending,
                     FragmentTally(c.crown, c.sash))
  }

  /** The list `saveToLeaderboard` writes back: the stored list with the new entry,
      sorted by score, highest first, at most 50 entries. */
  function SaveToLeaderboard(board: seq<LeaderboardEntry>, saved: Option<GameState>, run: RunSummary, id: string)
    : (r: seq<LeaderboardEntry>)
    ensures Ranking.SortedByScore(r)
    ensures |r| <= Ranking.Capacity
    ensures multiset(r) <= multiset(board + [NewEntry(saved, run, id)])
    ensures |board| < Ranking.Capacity ==> NewEntry(saved, run, id) in r && |r| == |board| + 1
    ensures |board| >= Ranking.Capacity ==> |r| == Ranking.Capacity
    ensures r == Ranking.Record(board, NewEntry(saved, run, id))
  {
    var e := NewEntry(saved, run, id);
    var r := Ranking.Record(board, e);
    assert |board| < Ranking.Capacity ==> e in multiset(r);
    r
  }

  /** The fragment counts the caller reports make no difference. */
  lemma {:induction false} SaveIgnoresReportedFragments(board: seq<LeaderboardEntry>, saved: Option<GameState>, run: RunSummary,
                                     other: FragmentTally, id: string)
    ensures SaveToLeaderboard(board, saved, run.(fragments := other), id) == SaveToLeaderboard(board, saved, run, id)
  {
  }
}

=== FILE: game_types.dfy ===
/** The records of `types/game.ts`. Strings the source constrains to a fixed set of
    literals become enumerations; numbers become `int` (the source's values are
    whole numbers); optional properties become `Option`. */
module GameTypes {
  import opened Wrappers

  /** The three endings. A leaderboard entry records the same set. */
  datatype Ending = Good | Neutral | Bad

  datatype Difficulty = Casual | Adventure | Legendary

  /** The `type` tag of a question. */
  datatype QuestionKind = Puzzle | Moral | Trivia | Event

  /** The `region` of a question: one of four names. */
  datatype RegionName = EmeraldForest | LuminaraCity | MountResolute | ValleyOfWisdom

  /** What choosing an option does: integer score and karma deltas, an optional item
      token (`fragment_crown_<n>`, `fragment_sash_<n>` or `hint`) and feedback text. */
  datatype Effect = Effect(score: int, karma: int, item: Option<string>, feedback: string)

  /** `isCorrect` is only shown; outcomes come from `effect`. */
  datatype QuestionOption = QuestionOption(id: string, text: string, isCorrect: bool, effect: Effect)

  /** A challenge of the catalog. `requiredKarma` is carried but no handler reads it. */
  datatype Question = Question(
    id: string,
    region: RegionName,
    kind: QuestionKind,
    category: string,
    difficulty: int,
    title: string,
    scenario: Option<string>,
    prompt: string,
    image: Option<string>,
    options: seq<QuestionOption>,
    hints: seq<string>,
    timeLimit: int,
    requiredKarma: Option<int>,
    tags: seq<string>)

  datatype Player = Player(name: string, avatar: string, difficulty: Difficulty)

  datatype Progress = Progress(currentRegion: int, completedChallenges: seq<string>, unlockedRegions: seq<int>)

  /** `startTime` is a millisecond clock reading, `playTime` whole seconds. */
  datatype Stats = Stats(score: int, karma: int, startTime: int, playTime: int, hintsUsed: int)

  /** The two collectible tracks, one flag per slot. */
  datatype Fragments = Fragments(crown: seq<bool>, sash: seq<bool>)

  datatype Inventory = Inventory(fragments: Fragments, hints: int, specialItems: seq<string>)

  /** Volumes and accessibility options; no game rule reads or writes them. */
  datatype Settings = Settings(musicVolume: real, sfxVolume: real, accessibility: map<string, string>)

  datatype GameState = GameState(
    version: string,
    timestamp: string,
    player: Player,
    progress: Progress,
    stats: Stats,
    inventory: Inventory,
    settings: Settings)

  /** Collected fragments per track, as stored with a leaderboard entry. */
  datatype FragmentTally = FragmentTally(crown: nat, sash: nat)

  datatype LeaderboardEntry = LeaderboardEntry(
    id: string,
    name: string,
    score: int,
    karma: int,
    time: int,
    date: string,
    ending: Ending,
    fragments: FragmentTally)

  /** A finished run as handed to the leaderboard, i.e. an entry without its `id`. */
  datatype RunSummary = RunSummary(
    name: string,
    score: int,
    karma: int,
    time: int,
    date: string,
    ending: Ending,
    fragments: FragmentTally)

  /** The ending's literal in the source (`'good'`, `'neutral'`, `'bad'`). */
  function EndingLabel(e: Ending): string {
    match e
    case Good => "good"
    case Neutral => "neutral"
    case Bad => "bad"
  }

  /** The three literals are distinct, so a stored label identifies its ending. */
  lemma {:induction false} EndingLabelInjective(a: Ending, b: Ending)
    ensures EndingLabel(a) == EndingLabel(b) ==> a == b
  {
  }
}

=== FILE: leaderboard_view.dfy ===
/** The leaderboard dialog (`Leaderboard.tsx`): one row per stored entry, in stored
    order, with rank, icon, highlight, ending badge and play time. */
module LeaderboardView {
  import opened Wrappers
  import opened GameTypes
  import TimeFormat
  import Numerals

  /** The icons of the first three places. */
  datatype Icon = Trophy | Medal | Award

  /** `getRankIcon`: an icon for ranks 1, 2 and 3 only. */
  function RankIcon(rank: int): (i: Option<Icon>)
    ensures i.Some? <==> 1 <= rank <= 3
  {
    if rank == 1 then Some(Trophy)
    else if rank == 2 then Some(Medal)
    else if rank == 3 then Some(Award)
    else None
  }

  /** The three icons are different. */
  lemma {:induction false} RankIconsDistinct(a: int, b: int)
    requires RankIcon(a).Some? && RankIcon(b).Some? && a != b
    ensures RankIcon(a) != RankIcon(b)
  {
  }

  /** The three ending badges. */
  datatype Badge = Hero | Tough | Unfinished

  /** `getEndingBadge`: the badge stored under the ending's text; any other text
      falls back to the neutral badge. */
  function BadgeOf(ending: string): (b: Badge)
    ensures b == Hero <==> ending == "good"
    ensures b == Unfinished <==> ending == "bad"
    ensures b == Tough <==> ending != "good" && ending != "bad"
  {
    if ending == "good" then Hero
    else if ending == "bad" then Unfinished
    else Tough
  }

  /** The badge of each ending. */
  function BadgeFor(e: Ending): Badge {
    match e
    case Good => Hero
    case Neutral => Tough
    case Bad => Unfinished
  }

  /** Reading an ending's stored text gives that ending's badge. */
  lemma {:induction false} BadgeOfLabel(e: Ending)
    ensures BadgeOf(EndingLabel(e)) == BadgeFor(e)
  {
  }

  /** One row. `time` is `None` for a negative recorded time, whose label is not
      modelled. */
  datatype Row = Row(rank: nat, icon: Option<Icon>, highlighted: bool, badge: Badge, name: string,
                     score: int, time: Option<string>)

  /** What the dialog shows: the empty state, or one row per entry. */
  datatype Screen = EmptyState | Rows(rows: seq<Row>)

  function RowOf(e: LeaderboardEntry, index: nat): (r: Row)
    ensures r.rank == index + 1
    ensures r.highlighted <==> r.rank <= 3
    ensures r.icon.Some? <==> r.highlighted
  {
    var rank := index + 1;
    Row(rank, RankIcon(rank), rank <= 3, BadgeOf(EndingLabel(e.ending)), e.name, e.score,
        if e.time >= 0 then Some(TimeFormat.BoardFormatTime(e.time)) else None)
  }

  /** The dialog for a list of entries. */
  function View(entries: seq<LeaderboardEntry>): (s: Screen)
    ensures s.EmptyState? <==> entries == []
    ensures s.Rows? ==> |s.rows| == |entries|
    ensures s.Rows? ==> forall i :: 0 <= i < |entries| ==> s.rows[i].rank == i + 1 && s.rows[i].name == entries[i].name
  {
    if entries == [] then EmptyState
    else Rows(seq(|entries|, i requires 0 <= i < |entries| => RowOf(entries[i], i)))
  }

  /** Exactly the first three rows (fewer on a shorter list) are highlighted, and no
      two rows carry the same icon. */
  lemma {:induction false} TopThree(entries: seq<LeaderboardEntry>)
    requires entries != []
    ensures var rows := View(entries).rows;
            && (forall i :: 0 <= i < |rows| ==> (rows[i].highlighted <==> i < 3))
            && (forall i, j :: 0 <= i < j < |rows| && rows[i].icon.Some? ==> rows[i].icon != rows[j].icon)
  {
    var rows := View(entries).rows;
    forall i, j | 0 <= i < j < |rows| && rows[i].icon.Some?
      ensures rows[i].icon != rows[j].icon
    {
      assert rows[i] == RowOf(entries[i], i) && rows[j] == RowOf(entries[j], j);
      if rows[j].icon.Some? {
        RankIconsDistinct(i + 1, j + 1);
      }
    }
  }

  /** A row's time label reads back as the whole minutes of the recorded time. */
  lemma {:induction false} RowTimeReadsBack(entries: seq<LeaderboardEntry>, i: nat)
    requires i < |entries| && entries[i].time >= 0
    ensures var t := View(entries).rows[i].time;
            t.Some? && TimeFormat.Sexagesimal(Numerals.ReadFields(t.value)) == entries[i].time / 60
  {
    TimeFormat.BoardFormatTimeReadsBack(entries[i].time);
  }
}

=== FILE: numerals.dfy ===
/** Integer <-> text conversions as JavaScript performs them on the values the game
    handles: `Number.prototype.toString` for non-negative integers, `padStart`,
    `parseInt` without a radix argument, and a reader that collects every run of
    decimal digits of a rendered label (the inverse used to state what the time
    formatters print). */
module Numerals {
  import opened Wrappers
  import Text

  /** The two radices `parseInt` chooses between when it is given no radix. */
  datatype Base = Ten | Sixteen {
    function Size(): nat {
      match this
      case Ten => 10
      case Sixteen => 16
    }
  }

  predicate IsDecimalDigit(c: char) {
    '0' <= c <= '9'
  }

  predicate IsDigitIn(c: char, b: Base) {
    || IsDecimalDigit(c)
    || (b == Sixteen && (('a' <= c <= 'f') || ('A' <= c <= 'F')))
  }

  predicate AllDigits(s: string, b: Base) {
    forall k :: 0 <= k < |s| ==> IsDigitIn(s[k], b)
  }

  function DigitValue(c: char, b: Base): (v: nat)
    requires IsDigitIn(c, b)
    ensures v < b.Size()
  {
    if IsDecimalDigit(c) then (c as int) - ('0' as int)
    else if 'a' <= c <= 'f' then (c as int) - ('a' as int) + 10
    else (c as int) - ('A' as int) + 10
  }

  /** The number a string of digits denotes in base `b`, most significant digit first. */
  function ValueOf(ds: string, b: Base): nat
    requires AllDigits(ds, b)
  {
    if ds == [] then 0
    else ValueOf(ds[..|ds| - 1], b) * b.Size() + DigitValue(ds[|ds| - 1], b)
  }

  /** The decimal digit character of `d`. */
  function DigitChar(d: nat): (c: char)
    requires d < 10
    ensures IsDecimalDigit(c) && DigitValue(c, Ten) == d
  {
    ('0' as int + d) as char
  }

  /** `n.toString()` for a non-negative integer: its decimal digits, without leading
      zeros, reading back as `n`. */
  function Decimal(n: nat): (r: string)
    ensures 1 <= |r|
    ensures AllDigits(r, Ten) && ValueOf(r, Ten) == n
    ensures r[0] == '0' ==> r == "0"
  {
    if n < 10 then [DigitChar(n)]
    else
      var r := Decimal(n / 10) + [DigitChar(n % 10)];
      assert r[..|r| - 1] == Decimal(n / 10);
      r
  }

  /** `s.padStart(width, fill)` for a string of one-unit characters. */
  function PadStart(s: string, width: nat, fill: char): (r: string)
    ensures |r| == if |s| < width then width else |s|
    ensures r[|r| - |s|..] == s
    ensures forall k :: 0 <= k < |r| - |s| ==> r[k] == fill
  {
    if |s| < width then seq(width - |s|, _ => fill) + s else s
  }

  /** `n.toString().padStart(2, '0')`, the two-digit field of a clock label. */
  function TwoDigits(n: nat): string {
    PadStart(Decimal(n), 2, '0')
  }

  /** The two-digit field is at least two digits long (exactly two below 100) and
      reads back as `n`. */
  lemma {:induction false} TwoDigitsReadsBack(n: nat)
    ensures 2 <= |TwoDigits(n)| && (n < 100 ==> |TwoDigits(n)| == 2)
    ensures AllDigits(TwoDigits(n), Ten) && ValueOf(TwoDigits(n), Ten) == n
  {
    var d := Decimal(n);
    var r := PadStart(d, 2, '0');
    var z := r[..|r| - |d|];
    assert r == z + d;
    LeadingZerosKeepValue(z, d);
    DecimalLength(n);
  }

  /** A number below 100 has at most two decimal digits. */
  lemma {:induction false} DecimalLength(n: nat)
    ensures n < 100 ==> |Decimal(n)| <= 2
  {
    if 10 <= n < 100 {
      assert Decimal(n) == Decimal(n / 10) + [DigitChar(n % 10)];
    }
  }

  /** Leading zeros do not change the value of a digit string. */
  lemma {:induction false} LeadingZerosKeepValue(z: string, d: string)
    requires forall k :: 0 <= k < |z| ==> z[k] == '0'
    requires AllDigits(d, Ten)
    ensures AllDigits(z + d, Ten) && ValueOf(z + d, Ten) == ValueOf(d, Ten)
  {
    if d == [] {
      assert z + d == z;
      ZerosAreZero(z);
    } else {
      var d' := d[..|d| - 1];
      LeadingZerosKeepValue(z, d');
      assert (z + d)[..|z + d| - 1] == z + d';
    }
  }

  lemma {:induction false} ZerosAreZero(z: string)
    requires forall k :: 0 <= k < |z| ==> z[k] == '0'
    ensures AllDigits(z, Ten) && ValueOf(z, Ten) == 0
  {
    if z != [] {
      ZerosAreZero(z[..|z| - 1]);
    }
  }

  /** The length of the run of base-`b` digits at the start of `s`. */
  function DigitSpan(s: string, b: Base): (n: nat)
    ensures n <= |s| && AllDigits(s[..n], b)
    ensures n == |s| || !IsDigitIn(s[n], b)
  {
    if s != [] && IsDigitIn(s[0], b) then
      var n := 1 + DigitSpan(s[1..], b);
      assert s[..n] == [s[0]] + s[1..][..n - 1];
      n
    else 0
  }

  /** A run of digits followed by a non-digit (or nothing) is read in full. */
  lemma {:induction false} DigitSpanOfRun(d: string, t: string, b: Base)
    requires AllDigits(d, b)
    requires t == [] || !IsDigitIn(t[0], b)
    ensures DigitSpan(d + t, b) == |d|
  {
    if d == [] {
      assert d + t == t;
    } else {
      var s := d + t;
      assert s[0] == d[0] && IsDigitIn(d[0], b);
      assert s[1..] == d[1..] + t;
      DigitSpanOfRun(d[1..], t, b);
      assert DigitSpan(s, b) == 1 + DigitSpan(s[1..], b);
    }
  }

  /** The number spelled by the run of base-`b` digits at the start of `v`, if there
      is one. */
  function ReadRun(v: string, b: Base): (r: Option<nat>)
    ensures r.Some? <==> v != [] && IsDigitIn(v[0], b)
  {
    var n := DigitSpan(v, b);
    if n == 0 then None else Some(ValueOf(v[..n], b))
  }

  /** The unsigned part of `parseInt`: a `0x`/`0X` prefix selects base sixteen. */
  function ReadUnsigned(u: string): Option<nat> {
    if |u| >= 2 && u[0] == '0' && (u[1] == 'x' || u[1] == 'X') then ReadRun(u[2..], Sixteen)
    else ReadRun(u, Ten)
  }

  /** `parseInt(s)` with no radix: leading white space is skipped, one sign is read,
      a `0x`/`0X` prefix selects base sixteen, and the longest run of digits after
      that is the number; no digit at all gives `NaN`, modelled as `None`. */
  function ParseInt(s: string): Option<int> {
    ParseTrimmed(Text.TrimStart(s))
  }

  /** `parseInt` after the leading white space: the sign, then the digits. */
  function ParseTrimmed(t: string): Option<int> {
    if t != [] && t[0] == '-' then
      match ReadUnsigned(t[1..])
      case Some(m) => Some(0 - m)
      case None => None
    else if t != [] && t[0] == '+' then ReadUnsigned(t[1..])
    else ReadUnsigned(t)
  }

  /** `parseInt` reads back what `toString` prints. */
  lemma {:induction false} ParseIntReadsDecimal(n: nat)
    ensures ParseInt(Decimal(n)) == Some(n)
  {
    var d := Decimal(n);
    assert !Text.IsJsSpace(d[0]) by { assert IsDecimalDigit(d[0]); }
    assert Text.TrimStart(d) == d;
    assert d[0] != '-' && d[0] != '+' by { assert IsDecimalDigit(d[0]); }
    ReadUnsignedDigits(d);
  }

  /** A run of decimal digits without a leading zero reads as its value. */
  lemma {:induction false} ReadUnsignedDigits(d: string)
    requires 1 <= |d| && AllDigits(d, Ten)
    requires d[0] == '0' ==> |d| == 1
    ensures ReadUnsigned(d) == Some(ValueOf(d, Ten))
  {
    assert d == d + [];
    DigitSpanOfRun(d, [], Ten);
    assert d[..|d|] == d;
  }

  /** Text holding no decimal digit is `NaN` to `parseInt`. */
  lemma {:induction false} ParseIntNeedsDigit(s: string)
    requires forall k :: 0 <= k < |s| ==> !IsDecimalDigit(s[k])
    ensures ParseInt(s) == None
  {
    var t := Text.TrimStart(s);
    assert forall k :: 0 <= k < |t| ==> t[k] == s[|s| - |t| + k];
    ParseTrimmedNeedsDigit(t);
  }

  lemma {:induction false} ParseTrimmedNeedsDigit(t: string)
    requires forall k :: 0 <= k < |t| ==> !IsDecimalDigit(t[k])
    ensures ParseTrimmed(t) == None
  {
    var u := if t != [] && (t[0] == '-' || t[0] == '+') then t[1..] else t;
    assert u == [] || !IsDigitIn(u[0], Ten);
    assert ReadUnsigned(u) == None;
  }

  /** Leading white space is invisible to `parseInt`. */
  lemma {:induction false} ParseIntSkipsSpace(w: string, s: string)
    requires forall k :: 0 <= k < |w| ==> Text.IsJsSpace(w[k])
    ensures ParseInt(w + s) == ParseInt(s)
  {
    TrimStartSkips(w, s);
    SameTrimSameParse(w + s, s);
  }

  lemma {:induction false} SameTrimSameParse(x: string, y: string)
    requires Text.TrimStart(x) == Text.TrimStart(y)
    ensures ParseInt(x) == ParseInt(y)
  {
  }

  lemma {:induction false} TrimStartSkips(w: string, s: string)
    requires forall k :: 0 <= k < |w| ==> Text.IsJsSpace(w[k])
    ensures Text.TrimStart(w + s) == Text.TrimStart(s)
  {
    LeadingSpacesSkip(w, s);
    assert (w + s)[|w| + Text.LeadingSpaces(s)..] == s[Text.LeadingSpaces(s)..];
  }

  lemma {:induction false} LeadingSpacesSkip(w: string, s: string)
    requires forall k :: 0 <= k < |w| ==> Text.IsJsSpace(w[k])
    ensures Text.LeadingSpaces(w + s) == |w| + Text.LeadingSpaces(s)
  {
    if w != [] {
      assert (w + s)[0] == w[0];
      assert (w + s)[1..] == w[1..] + s;
      LeadingSpacesSkip(w[1..], s);
    } else {
      assert w + s == s;
    }
  }

  /** Every maximal run of decimal digits in `s`, read as a number, in order: the
      numbers a reader sees in a rendered label. */
  function ReadFields(s: string): seq<nat>
    decreases |s|
  {
    if s == [] then []
    else if !IsDecimalDigit(s[0]) then ReadFields(s[1..])
    else
      var n := DigitSpan(s, Ten);
      [ValueOf(s[..n], Ten)] + ReadFields(s[n..])
  }

  /** A number field followed by a separator contributes exactly its value. */
  lemma {:induction false} ReadFieldsOfNumber(d: string, t: string)
    requires 1 <= |d| && AllDigits(d, Ten)
    requires t == [] || !IsDecimalDigit(t[0])
    ensures ReadFields(d + t) == [ValueOf(d, Ten)] + ReadFields(t)
  {
    DigitSpanOfRun(d, t, Ten);
    assert (d + t)[..|d|] == d;
    assert (d + t)[|d|..] == t;
  }

  /** Separator text without digits contributes nothing. */
  lemma {:induction false} ReadFieldsOfLiteral(lit: string, t: string)
    requires forall k :: 0 <= k < |lit| ==> !IsDecimalDigit(lit[k])
    ensures ReadFields(lit + t) == ReadFields(t)
  {
    if lit == [] {
      assert lit + t == t;
    } else {
      assert (lit + t)[1..] == lit[1..] + t;
      ReadFieldsOfLiteral(lit[1..], t);
    }
  }
}

=== FILE: player_setup.dfy ===
/** The profile form (`PlayerSetup.tsx`): name, avatar and difficulty, and the
    name checks run on submit. */
module PlayerSetup {
  import opened Wrappers
  import opened GameTypes
  import opened Text

  /** The shortest and longest accepted name, in UTF-16 code units. */
  const MinName: nat := 3
  const MaxName: nat := 15

  /** The avatars the form offers. */
  const Avatars: seq<string> := ["avatar1", "avatar2", "avatar3", "avatar4", "avatar5"]

  /** The three messages the form can show, one per failed check. */
  datatype SetupError = TooShort | TooLong | BadChars

  /** A character of `[a-zA-Z0-9_\s]`. */
  predicate NameChar(c: char) {
    ('a' <= c <= 'z') || ('A' <= c <= 'Z') || ('0' <= c <= '9') || c == '_' || IsJsSpace(c)
  }

  predicate NameChars(s: string) {
    forall k :: 0 <= k < |s| ==> NameChar(s[k])
  }

  /** The outcome of the checks on submit. */
  datatype Verdict = Accepted(name: string) | Rejected(error: SetupError)

  /** The checks on an already trimmed name: too short, too long, or holding a
      character outside the set, tested in that order; otherwise accepted. */
  function Check(t: string): (r: Verdict)
    ensures r == Rejected(TooShort) <==> Utf16Length(t) < MinName
    ensures r == Rejected(TooLong) <==> MinName <= Utf16Length(t) && MaxName < Utf16Length(t)
    ensures r == Rejected(BadChars) <==> MinName <= Utf16Length(t) <= MaxName && !NameChars(t)
    ensures r.Accepted? <==> MinName <= Utf16Length(t) <= MaxName && NameChars(t)
    ensures r.Accepted? ==> r.name == t
  {
    if Utf16Length(t) < 3 then Rejected(TooShort)
    else if Utf16Length(t) > 15 then Rejected(TooLong)
    else if !NameChars(t) then Rejected(BadChars)
    else Accepted(t)
  }

  /** `handleSubmit`'s verdict: the name is trimmed, then checked. */
  function Validate(name: string): Verdict {
    Check(Trim(name))
  }

  /** An accepted name is at least three characters long, has no white space at
      either end, and is accepted again unchanged. */
  lemma {:induction false} AcceptedNameIsStable(name: string)
    requires Validate(name).Accepted?
    ensures var t := Validate(name).name;
            && MinName <= |t| && !IsJsSpace(t[0]) && !IsJsSpace(t[|t| - 1])
            && Validate(t) == Accepted(t)
  {
    var t := Trim(name);
    assert Validate(name) == Accepted(t);
    NameCharsLength(t);
    TrimIdempotent(name);
    AcceptedAgain(t);
  }

  /** Every allowed character is a single UTF-16 code unit. */
  lemma {:induction false} NameCharsLength(t: string)
    requires NameChars(t)
    ensures Utf16Length(t) == |t|
  {
    forall k | 0 <= k < |t| ensures t[k] as int <= 0xFFFF {
      assert NameChar(t[k]);
    }
    Utf16LengthOfBmp(t);
  }

  lemma {:induction false} AcceptedAgain(t: string)
    requires Check(t).Accepted? && Trim(t) == t
    ensures Validate(t) == Accepted(t)
  {
  }

  /** The form state; `error` is the message on display. */
  datatype Form = Form(name: string, avatar: string, difficulty: Difficulty, error: Option<SetupError>)

  /** A fresh form: empty name, the first avatar, the adventure difficulty. */
  function NewForm(): (f: Form)
    ensures f.name == "" && f.avatar == Avatars[0] && f.difficulty == Adventure && f.error == None
  {
    Form("", "avatar1", Adventure, None)
  }

  /** Typing replaces the name and clears the message. */
  function EditName(f: Form, name: string): (r: Form)
    ensures r.name == name && r.error == None
    ensures r.avatar == f.avatar && r.difficulty == f.difficulty
  {
    f.(name := name, error := None)
  }

  /** Clicking an avatar selects it; the name and its message stay. */
  function ChooseAvatar(f: Form, avatar: string): (r: Form)
    ensures r.avatar == avatar
    ensures r == f.(avatar := r.avatar)
  {
    f.(avatar := avatar)
  }

  /** Picking a difficulty selects it; the name and its message stay. */
  function ChooseDifficulty(f: Form, d: Difficulty): (r: Form)
    ensures r.difficulty == d
    ensures r == f.(difficulty := r.difficulty)
  {
    f.(difficulty := d)
  }

  /** `handleSubmit`: a rejected name sets exactly one message and completes
      nothing; an accepted one completes the form with the trimmed name and the
      chosen avatar and difficulty. */
  function Submit(f: Form): (r: (Form, Option<Player>))
    ensures r.1.Some? <==> Validate(f.name).Accepted?
    ensures r.1.Some? ==> r.1.value == Player(Trim(f.name), f.avatar, f.difficulty) && r.0 == f
    ensures r.1.None? ==> r.0 == f.(error := Some(Validate(f.name).error))
  {
    match Validate(f.name)
    case Accepted(t) => (f, Some(Player(t, f.avatar, f.difficulty)))
    case Rejected(e) => (f.(error := Some(e)), None)
  }

  /** A completed profile always carries a non-empty name. */
  lemma {:induction false} CompletedNameNonEmpty(f: Form)
    requires Submit(f).1.Some?
    ensures Submit(f).1.value.name != ""
  {
    AcceptedNameIsStable(f.name);
  }

  /** Submitting the fresh form is rejected as too short. */
  lemma {:induction false} EmptyNameTooShort()
    ensures Submit(NewForm()) == (NewForm().(error := Some(TooShort)), None)
  {
    assert Trim("") == "";
  }

  /** The avatar and difficulty last chosen are the ones the completed profile
      carries, and choosing them never changes whether the name is accepted. */
  lemma {:induction false} ChoicesReachTheProfile(f: Form, avatar: string, d: Difficulty)
    ensures var chosen := Submit(ChooseDifficulty(ChooseAvatar(f, avatar), d)).1;
            && (chosen.Some? <==> Submit(f).1.Some?)
            && (chosen.Some? ==> chosen.value == Submit(f).1.value.(avatar := avatar, difficulty := d))
  {
  }
}

=== FILE: ranking.dfy ===
/** The list logic of `saveToLeaderboard`: append one entry, sort by score with
    `(a, b) => b.score - a.score` (a stable sort, highest score first, ties kept in
    their previous order) and keep the first 50. */
module Ranking {
  import opened GameTypes

  /** How many entries the leaderboard keeps. */
  const Capacity: nat := 50

  /** Highest score first. */
  predicate SortedByScore(s: seq<LeaderboardEntry>) {
    forall i, j :: 0 <= i < j < |s| ==> s[i].score >= s[j].score
  }

  /** The entries with score `v`, in their order in `s`. Two sequences that agree on
      this for every `v` order equal scores alike. */
  function WithScore(s: seq<LeaderboardEntry>, v: int): seq<LeaderboardEntry> {
    if s == [] then []
    else (if s[0].score == v then [s[0]] else []) + WithScore(s[1..], v)
  }

  /** `x` placed in front of the first entry of `t` that does not score more. */
  function Insert(x: LeaderboardEntry, t: seq<LeaderboardEntry>): (r: seq<LeaderboardEntry>)
    ensures multiset(r) == multiset(t) + multiset{x}
  {
    if t == [] || t[0].score <= x.score then [x] + t
    else
      assert t == [t[0]] + t[1..];
      [t[0]] + Insert(x, t[1..])
  }

  /** Inserting `x` adds it in front of its score group and changes no other group. */
  lemma {:induction false} InsertGroup(x: LeaderboardEntry, t: seq<LeaderboardEntry>, v: int)
    ensures WithScore(Insert(x, t), v) == (if x.score == v then [x] else []) + WithScore(t, v)
  {
    if t == [] || t[0].score <= x.score {
      WithScoreCons(x, t, v);
    } else {
      var h, rest := t[0], Insert(x, t[1..]);
      InsertGroup(x, t[1..], v);
      assert Insert(x, t) == [h] + rest;
      WithScoreCons(h, rest, v);
      assert t == [h] + t[1..];
      WithScoreCons(h, t[1..], v);
      if h.score == v {
        assert x.score != v;
      }
    }
  }

  /** The group of a list with a given head. */
  lemma {:induction false} WithScoreCons(h: LeaderboardEntry, s: seq<LeaderboardEntry>, v: int)
    ensures WithScore([h] + s, v) == (if h.score == v then [h] else []) + WithScore(s, v)
  {
    assert ([h] + s)[1..] == s;
  }

  /** Inserting into a sorted list keeps it sorted. */
  lemma {:induction false} InsertSorted(x: LeaderboardEntry, t: seq<LeaderboardEntry>)
    requires SortedByScore(t)
    ensures SortedByScore(Insert(x, t))
  {
    var r := Insert(x, t);
    if t == [] || t[0].score <= x.score {
      assert r[1..] == t;
    } else {
      var rest := Insert(x, t[1..]);
      InsertSorted(x, t[1..]);
      assert r == [t[0]] + rest;
      forall j | 0 < j < |r| ensures r[0].score >= r[j].score {
        assert r[j] in multiset(rest);
        assert r[j] in multiset(t[1..]) + multiset{x};
        if r[j] != x {
          assert r[j] in t[1..];
        }
      }
    }
  }

  /** Stable sort, highest score first. */
  function SortByScore(s: seq<LeaderboardEntry>): (r: seq<LeaderboardEntry>)
    ensures SortedByScore(r)
    ensures multiset(r) == multiset(s)
    ensures forall v {:trigger WithScore(r, v)} :: WithScore(r, v) == WithScore(s, v)
  {
    if s == [] then []
    else
      var rest := SortByScore(s[1..]);
      var r := Insert(s[0], rest);
      InsertSorted(s[0], rest);
      assert s == [s[0]] + s[1..];
      assert forall v {:trigger WithScore(r, v)} :: WithScore(r, v) == WithScore(s, v) by {
        forall v ensures WithScore(r, v) == WithScore(s, v) {
          InsertGroup(s[0], rest, v);
        }
      }
      r
  }

  /** The resulting leaderboard: the old list plus `e`, sorted, at most `Capacity` long. */
  function Record(board: seq<LeaderboardEntry>, e: LeaderboardEntry): (r: seq<LeaderboardEntry>)
    ensures |r| == if |board| + 1 <= Capacity then |board| + 1 else Capacity
    ensures SortedByScore(r)
    ensures multiset(r) <= multiset(board + [e])
    ensures |board| < Capacity ==> multiset(r) == multiset(board + [e])
  {
    var all := SortByScore(board + [e]);
    var r := if |all| <= Capacity then all else all[..Capacity];
    assert all == r + all[|r|..];
    assert multiset(all) == multiset(r) + multiset(all[|r|..]);
    r
  }

  /** What `Record` drops scores no more than anything it keeps, and every score
      group keeps its relative order. */
  lemma {:induction false} RecordKeepsTheBest(board: seq<LeaderboardEntry>, e: LeaderboardEntry)
    ensures var all := SortByScore(board + [e]);
            var r := Record(board, e);
            && all[..|r|] == r
            && multiset(r) + multiset(all[|r|..]) == multiset(board + [e])
            && (forall i, j :: 0 <= i < |r| <= j < |all| ==> r[i].score >= all[j].score)
  {
    var all := SortByScore(board + [e]);
    var r := Record(board, e);
    assert all == r + all[|r|..];
  }

  /** A full board that receives one more entry drops exactly one entry, and that
      entry scores lowest of all. */
  lemma {:induction false} FullBoardDropsLowest(board: seq<LeaderboardEntry>, e: LeaderboardEntry)
    requires |board| == Capacity
    ensures exists d ::
              && d in board + [e]
              && multiset(Record(board, e)) + multiset{d} == multiset(board + [e])
              && (forall x :: x in board + [e] ==> d.score <= x.score)
  {
    var all := SortByScore(board + [e]);
    var r := Record(board, e);
    RecordKeepsTheBest(board, e);
    var d := all[Capacity];
    assert all[|r|..] == [d];
    assert d in multiset(board + [e]);
    LastIsLowest(all);
    forall x | x in board + [e] ensures x in all {
      assert x in multiset(board + [e]);
    }
  }

  /** The last entry of a sorted list scores lowest. */
  lemma {:induction false} LastIsLowest(s: seq<LeaderboardEntry>)
    requires SortedByScore(s) && s != []
    ensures forall x :: x in s ==> s[|s| - 1].score <= x.score
  {
    forall x | x in s ensures s[|s| - 1].score <= x.score {
      var k :| 0 <= k < |s| && s[k] == x;
      if k < |s| - 1 {
        assert s[k].score >= s[|s| - 1].score;
      }
    }
  }

  /** On a sorted board, the sort places the new entry after every entry that scores
      at least as much, and moves nothing else. */
  lemma {:induction false} RecordOnSortedBoard(board: seq<LeaderboardEntry>, e: LeaderboardEntry)
    requires SortedByScore(board)
    ensures SortByScore(board + [e]) == board[..AtLeast(board, e.score)] + [e] + board[AtLeast(board, e.score)..]
  {
    if board == [] {
      assert board + [e] == [e];
    } else {
      var rest := board[1..];
      assert SortByScore(board + [e]) == Insert(board[0], SortByScore(rest + [e])) by {
        assert board + [e] == [board[0]] + (rest + [e]);
      }
      RecordOnSortedBoard(rest, e);
      PlaceHead(board, e);
    }
  }

  /** The step of `RecordOnSortedBoard`: putting the head of the board in front of
      the sorted rest. */
  lemma {:induction false} PlaceHead(board: seq<LeaderboardEntry>, e: LeaderboardEntry)
    requires SortedByScore(board) && board != []
    ensures var rest := board[1..];
            var k' := AtLeast(rest, e.score);
            var k := AtLeast(board, e.score);
            Insert(board[0], rest[..k'] + [e] + rest[k'..]) == board[..k] + [e] + board[k..]
  {
    if board[0].score >= e.score {
      PlaceHeadFirst(board, e);
    } else {
      PlaceHeadAfter(board, e);
    }
  }

  lemma {:induction false} PlaceHeadFirst(board: seq<LeaderboardEntry>, e: LeaderboardEntry)
    requires SortedByScore(board) && board != [] && board[0].score >= e.score
    ensures var rest := board[1..];
            var k' := AtLeast(rest, e.score);
            var k := AtLeast(board, e.score);
            Insert(board[0], rest[..k'] + [e] + rest[k'..]) == board[..k] + [e] + board[k..]
  {
    var rest := board[1..];
    var k' := AtLeast(rest, e.score);
    var sortedRest := rest[..k'] + [e] + rest[k'..];
    assert AtLeast(board, e.score) == k' + 1;
    assert sortedRest[0].score <= board[0].score by {
      if k' > 0 { assert sortedRest[0] == rest[0]; } else { assert sortedRest[0] == e; }
    }
    SplitAfterHead(board, k', e);
  }

  /** Placing `e` after the first `k + 1` elements is placing it after the first `k`
      elements of the tail. */
  lemma {:induction false} SplitAfterHead<T>(s: seq<T>, k: nat, e: T)
    requires k < |s|
    ensures s[..k + 1] + [e] + s[k + 1..] == [s[0]] + (s[1..][..k] + [e] + s[1..][k..])
  {
    assert s[..k + 1] == [s[0]] + s[1..][..k];
    assert s[k + 1..] == s[1..][k..];
  }

  lemma {:induction false} PlaceHeadAfter(board: seq<LeaderboardEntry>, e: LeaderboardEntry)
    requires SortedByScore(board) && board != [] && board[0].score < e.score
    ensures var rest := board[1..];
            var k' := AtLeast(rest, e.score);
            var k := AtLeast(board, e.score);
            Insert(board[0], rest[..k'] + [e] + rest[k'..]) == board[..k] + [e] + board[k..]
  {
    var b0, rest := board[0], board[1..];
    AtLeastOfLower(board, e.score);
    assert rest[..0] + [e] + rest[0..] == [e] + rest;
    assert Insert(b0, [e] + rest) == [e] + Insert(b0, rest);
    assert Insert(b0, rest) == [b0] + rest by {
      if rest != [] { assert rest[0].score <= b0.score; }
    }
    assert board == [b0] + rest;
  }

  /** The number of leading entries of a sorted board that score at least `v`. */
  function AtLeast(board: seq<LeaderboardEntry>, v: int): (k: nat)
    ensures k <= |board|
  {
    if board == [] || board[0].score < v then 0 else 1 + AtLeast(board[1..], v)
  }

  lemma {:induction false} AtLeastOfLower(board: seq<LeaderboardEntry>, v: int)
    requires SortedByScore(board) && board != [] && board[0].score < v
    ensures AtLeast(board[1..], v) == 0
  {
    if |board| > 1 {
      assert board[1].score <= board[0].score;
    }
  }
}

=== FILE: region_map.dfy ===
/** The region map (`RegionMap.tsx`): the fixed table of four regions, the lock,
    completion and "current" predicates, and the click guard. */
module RegionMap {
  import opened Wrappers
  import opened GameTypes
  import opened Numerals
  import Text

  /** One row of the region table; title, description and image are left out. */
  datatype Region = Region(id: int, name: RegionName, challenges: nat)

  /** Challenges per region. */
  const ChallengesPerRegion: nat := 5

  /** The region table, in id order. */
  const Regions: seq<Region> := [
    Region(1, EmeraldForest, ChallengesPerRegion),
    Region(2, LuminaraCity, ChallengesPerRegion),
    Region(3, MountResolute, ChallengesPerRegion),
    Region(4, ValleyOfWisdom, ChallengesPerRegion)
  ]

  /** The last region id. */
  const LastRegion: int := 4

  predicate IsRegionId(r: int) {
    1 <= r <= LastRegion
  }

  /** The region name an id stands for, as in the id-to-name table of both the map
      and the page; any other id names nothing. */
  function NameOf(r: int): (n: Option<RegionName>)
    ensures n.Some? <==> IsRegionId(r)
    ensures n.Some? ==> n.value == Regions[r - 1].name
  {
    if r == 1 then Some(EmeraldForest)
    else if r == 2 then Some(LuminaraCity)
    else if r == 3 then Some(MountResolute)
    else if r == 4 then Some(ValleyOfWisdom)
    else None
  }

  /** The table lists ids 1 to 4 in order, each region with its own name, so ids
      and names correspond one to one. */
  lemma {:induction false} TableIsOneToOne()
    ensures |Regions| == LastRegion
    ensures forall i :: 0 <= i < |Regions| ==> Regions[i].id == i + 1 && Regions[i].challenges == 5
    ensures forall a, b :: IsRegionId(a) && IsRegionId(b) && NameOf(a) == NameOf(b) ==> a == b
    ensures forall i :: 0 <= i < |Regions| ==> NameOf(i + 1) == Some(Regions[i].name)
  {
  }

  /** `isRegionUnlocked`. */
  predicate IsUnlocked(p: Progress, r: int) {
    r in p.unlockedRegions
  }

  /** A completed id counts for region `r` when it contains `q00<r>` or `q0<r>`. */
  predicate CountsFor(id: string, r: nat) {
    Text.Contains(id, "q00" + Decimal(r)) || Text.Contains(id, "q0" + Decimal(r))
  }

  /** How many ids count for region `r`; each id counts once. */
  function CountFor(ids: seq<string>, r: nat): (n: nat)
    ensures n <= |ids|
  {
    if ids == [] then 0
    else CountFor(ids[..|ids| - 1], r) + (if CountsFor(ids[|ids| - 1], r) then 1 else 0)
  }

  /** `isRegionCompleted`: at least as many counting ids as the region has
      challenges. The source indexes the table with `r - 1`, so only ids 1..4 are
      meaningful. */
  predicate IsCompleted(p: Progress, r: int)
    requires IsRegionId(r)
  {
    CountFor(p.completedChallenges, r) >= Regions[r - 1].challenges
  }

  /** Appending an id never lowers a count, so a completed region stays completed
      as more challenges are answered. */
  lemma {:induction false} CountForAppend(ids: seq<string>, id: string, r: nat)
    ensures CountFor(ids + [id], r) == CountFor(ids, r) + (if CountsFor(id, r) then 1 else 0)
  {
    assert (ids + [id])[..|ids|] == ids;
  }

  lemma {:induction false} CompletedStaysCompleted(p: Progress, id: string, r: int)
    requires IsRegionId(r) && IsCompleted(p, r)
    ensures IsCompleted(p.(completedChallenges := p.completedChallenges + [id]), r)
  {
    CountForAppend(p.completedChallenges, id, r);
  }

  /** Completion counts entries, not distinct ids: the same id answered five times
      completes its region. */
  lemma {:induction false} RepeatsCount(id: string, r: int)
    requires IsRegionId(r) && CountsFor(id, r)
    ensures IsCompleted(Progress(r, [id, id, id, id, id], [r]), r)
  {
    CountAllCounting([id, id, id, id, id], id, r);
    TableIsOneToOne();
  }

  /** A list made only of one counting id counts in full. */
  lemma {:induction false} CountAllCounting(ids: seq<string>, id: string, r: nat)
    requires CountsFor(id, r)
    requires forall j :: 0 <= j < |ids| ==> ids[j] == id
    ensures CountFor(ids, r) == |ids|
  {
    if ids != [] {
      CountAllCounting(ids[..|ids| - 1], id, r);
    }
  }

  /** An id counts for every region whose pattern it contains: `q010` contains
      `q01` and so counts for region 1. */
  lemma {:induction false} IdCountsByContainment()
    ensures CountsFor("q010", 1)
  {
    DecimalOne();
    assert Text.StartsWith("q010", "q01");
  }

  lemma {:induction false} DecimalOne()
    ensures Decimal(1) == "1"
  {
    assert ValueOf(Decimal(1), Ten) == 1;
    DecimalLength(1);
  }

  /** `isCurrentRegion`. */
  predicate IsCurrent(p: Progress, r: int) {
    p.currentRegion == r
  }

  /** The badges a region card shows. */
  datatype Badges = Badges(done: bool, locked: bool, here: bool)

  /** The status badges of region `r`: "done" when completed, "locked" when not
      unlocked, "here" only for the current region that is unlocked and not done. */
  function BadgesOf(p: Progress, r: int): (b: Badges)
    requires IsRegionId(r)
    ensures b.here ==> !b.locked && !b.done
    ensures b.locked <==> !IsUnlocked(p, r)
    ensures b.done <==> IsCompleted(p, r)
    ensures b.here <==> IsCurrent(p, r) && IsUnlocked(p, r) && !IsCompleted(p, r)
  {
    var done := IsCompleted(p, r);
    var unlocked := IsUnlocked(p, r);
    Badges(done, !unlocked, IsCurrent(p, r) && unlocked && !done)
  }

  /** At most one card carries the "here" badge. */
  lemma {:induction false} OneCurrentBadge(p: Progress, a: int, b: int)
    requires IsRegionId(a) && IsRegionId(b)
    requires BadgesOf(p, a).here && BadgesOf(p, b).here
    ensures a == b
  {
  }

  /** The click handler of a card: the region id reaches the page only for an
      unlocked region. */
  function Click(p: Progress, r: int): (selected: Option<int>)
    ensures selected.Some? <==> IsUnlocked(p, r)
    ensures selected.Some? ==> selected.value == r
  {
    if IsUnlocked(p, r) then Some(r) else None
  }
}

=== FILE: session.dfy ===
/** The page controller (`src/pages/Index.tsx`): the phase machine that ties the
    screens to the game manager. A `World` is what the page holds in React state
    plus what it keeps in storage; every user action or timer event is an `Intent`,
    and `Step` is the handler the page runs for it followed by the auto-save
    effect. Clock readings, ISO texts, leaderboard ids and the shuffled question
    catalog arrive as parameters of the intents. */
module Session {
  import opened Wrappers
  import opened GameTypes
  import GM = GameManager
  import Text
  import RegionMap
  import ChallengeScreen
  import PlayerSetup

  datatype Phase = Landing | Setup | Map | Challenge | Feedback | Ending | Leaderboard

  /** What storage holds: the save slot and the leaderboard list. */
  datatype Store = Store(save: Option<GameState>, board: seq<LeaderboardEntry>)

  /** The page's state, with the state of the form and of the challenge screen,
      which are mounted afresh whenever their phase is entered. */
  datatype Page = Page(
    phase: Phase,
    game: GameState,
    question: Option<Question>,
    answer: Option<QuestionOption>,
    form: PlayerSetup.Form,
    view: ChallengeScreen.View)

  datatype World = World(page: Page, store: Store)

  /** What the user or a timer can do. `catalog` is the shuffled question list the
      game manager returns on that call; `now` is `Date.now()`, `iso` and `date` are
      ISO time texts, `id` the generated leaderboard id. */
  datatype Intent =
    | Start
    | ShowLeaderboard
    | CloseLeaderboard
    | EditName(name: string)
    | ChooseAvatar(avatar: string)
    | ChooseDifficulty(difficulty: Difficulty)
    | SubmitProfile(now: int)
    | SelectRegion(region: int, catalog: seq<Question>, now: int)
    | ChooseOption(optionId: string)
    | SubmitAnswer
    | RequestHint
    | Tick
    | Continue(catalog: seq<Question>, now: int)
    | SaveRun(now: int, date: string, id: string)
    | PlayAgain(now: int, iso: string, date: string, id: string)

  /** Completions after which the run ends. */
  const RunLength: nat := 20

  /** The challenge screen before any question: nothing selected, no time. */
  const IdleView: ChallengeScreen.View := ChallengeScreen.View(None, 0, false, 0)

  /** The page as it mounts: on the landing screen, holding the saved game if
      there is one and a new game otherwise. */
  function Open(store: Store, now: int, iso: string): (w: World)
    ensures w.page.phase == Landing && w.store == store
    ensures store.save.Some? ==> w.page.game == store.save.value
    ensures store.save.None? ==> w.page.game == GM.InitialState(now, iso)
  {
    var game := if store.save.Some? then store.save.value else GM.InitialState(now, iso);
    World(Page(Landing, game, None, None, PlayerSetup.NewForm(), IdleView), store)
  }

  // ---------------------------------------------------------------------------
  // Which intents each screen offers

  /** The intents the screen of each phase can raise. */
  predicate Offered(p: Phase, i: Intent) {
    match i
    case Start => p == Landing
    case ShowLeaderboard => p == Landing
    case CloseLeaderboard => p == Leaderboard
    case EditName(_) => p == Setup
    case ChooseAvatar(_) => p == Setup
    case ChooseDifficulty(_) => p == Setup
    case SubmitProfile(_) => p == Setup
    case SelectRegion(_, _, _) => p == Map
    case ChooseOption(_) => p == Challenge
    case SubmitAnswer => p == Challenge
    case RequestHint => p == Challenge
    case Tick => p == Challenge
    case Continue(_, _) => p == Feedback
    case SaveRun(_, _, _) => p == Ending
    case PlayAgain(_, _, _, _) => p == Ending
  }

  // ---------------------------------------------------------------------------
  // Catalog queries

  /** The questions of `region` not yet completed, in catalog order: the page's
      `getQuestionsByRegion(...)` followed by the `includes` filter. A region id
      outside the table names no region and so matches no question. */
  function Pending(catalog: seq<Question>, region: Option<RegionName>, done: seq<string>): (r: seq<Question>)
    ensures |r| <= |catalog|
    ensures forall q :: q in r <==> q in catalog && region == Some(q.region) && q.id !in done
  {
    if catalog == [] then []
    else
      var q := catalog[0];
      assert forall x :: x in catalog <==> x == q || x in catalog[1..];
      (if region == Some(q.region) && q.id !in done then [q] else []) + Pending(catalog[1..], region, done)
  }

  /** The first pending question is the earliest catalog entry that is pending. */
  lemma {:induction false} FirstPendingIsEarliest(catalog: seq<Question>, region: Option<RegionName>, done: seq<string>)
    requires Pending(catalog, region, done) != []
    ensures exists k :: 0 <= k < |catalog| && catalog[k] == Pending(catalog, region, done)[0]
              && forall j :: 0 <= j < k ==> !(region == Some(catalog[j].region) && catalog[j].id !in done)
  {
    var k := FirstPendingIndex(catalog, region, done);
  }

  /** The catalog index of the first pending question. */
  lemma {:induction false} FirstPendingIndex(catalog: seq<Question>, region: Option<RegionName>, done: seq<string>)
    returns (k: nat)
    requires Pending(catalog, region, done) != []
    ensures k < |catalog| && catalog[k] == Pending(catalog, region, done)[0]
    ensures forall j :: 0 <= j < k ==> !(region == Some(catalog[j].region) && catalog[j].id !in done)
  {
    var q := catalog[0];
    if region == Some(q.region) && q.id !in done {
      k := 0;
    } else {
      var rest := catalog[1..];
      assert Pending(catalog, region, done) == Pending(rest, region, done);
      var k' := FirstPendingIndex(rest, region, done);
      k := k' + 1;
      assert catalog[k] == rest[k'];
      forall j | 0 <= j < k
        ensures !(region == Some(catalog[j].region) && catalog[j].id !in done)
      {
        if j > 0 {
          assert catalog[j] == rest[j - 1];
        }
      }
    }
  }

  /** Only which questions the catalog holds matters for whether a region has
      anything pending, not the order the shuffle put them in. */
  lemma {:induction false} PendingIgnoresOrder(a: seq<Question>, b: seq<Question>, region: Option<RegionName>, done: seq<string>)
    requires forall q :: q in a <==> q in b
    ensures Pending(a, region, done) == [] <==> Pending(b, region, done) == []
  {
    if Pending(a, region, done) != [] {
      assert Pending(a, region, done)[0] in Pending(b, region, done);
    }
    if Pending(b, region, done) != [] {
      assert Pending(b, region, done)[0] in Pending(a, region, done);
    }
  }

  // ---------------------------------------------------------------------------
  // Game updates made by the page itself

  /** `handleGameComplete`'s update: the play time in whole seconds, rounded down,
      from the start reading to `now`. */
  function Complete(g: GameState, now: int): (r: GameState)
    ensures r == g.(stats := g.stats.(playTime := r.stats.playTime))
    ensures 1000 * r.stats.playTime <= now - g.stats.startTime < 1000 * (r.stats.playTime + 1)
  {
    g.(stats := g.stats.(playTime := (now - g.stats.startTime) / 1000))
  }

  /** The item of a chosen option: a token starting with `fragment` goes to
      `addFragment`, `hint` adds one hint, anything else is ignored. */
  function ApplyItem(g: GameState, item: Option<string>): (r: GameState)
    ensures r.stats == g.stats && r.progress == g.progress && r.player == g.player
    ensures r == g.(inventory := r.inventory)
    ensures item.None? ==> r == g
    ensures item == Some("hint") ==> r == g.(inventory := g.inventory.(hints := g.inventory.hints + 1))
    ensures item.Some? && Text.StartsWith(item.value, "fragment") ==> r == GM.AddFragment(g, item.value)
  {
    match item
    case None => g
    case Some(it) =>
      if Text.StartsWith(it, "fragment") then GM.AddFragment(g, it)
      else if it == "hint" then g.(inventory := g.inventory.(hints := g.inventory.hints + 1))
      else g
  }

  /** The item's effect on the inventory depends on the inventory alone, so score
      and karma updates made before it do not change it. */
  lemma {:induction false} ApplyItemReadsInventory(g: GameState, h: GameState, item: Option<string>)
    requires g.inventory == h.inventory
    ensures ApplyItem(g, item).inventory == ApplyItem(h, item).inventory
  {
  }

  /** The effect of answering question `qid` with an option: score first, then
      karma, then the item; the question id is then appended to the completed
      list, whether or not it is already there. */
  function ApplyEffect(g: GameState, e: Effect, qid: string): (r: GameState)
    ensures r.progress == g.progress.(completedChallenges := g.progress.completedChallenges + [qid])
    ensures r.stats.score == GM.UpdateScore(g, e.score).stats.score
    ensures r.stats.karma == GM.UpdateKarma(g, e.karma).stats.karma
    ensures r.stats.hintsUsed == g.stats.hintsUsed && r.player == g.player
    ensures r.inventory == ApplyItem(g, e.item).inventory
    ensures r == g.(progress := r.progress, stats := g.stats.(score := r.stats.score, karma := r.stats.karma),
                    inventory := r.inventory)
  {
    var scored := GM.UpdateScore(g, e.score);
    var karmic := GM.UpdateKarma(scored, e.karma);
    var itemised := ApplyItem(karmic, e.item);
    ApplyItemReadsInventory(karmic, g, e.item);
    itemised.(progress := itemised.progress.(completedChallenges := itemised.progress.completedChallenges + [qid]))
  }

  /** `options.find(o => o.id === id)`: the first option with that id. */
  function FindOption(options: seq<QuestionOption>, id: string): (r: Option<QuestionOption>)
    ensures r.None? <==> forall k :: 0 <= k < |options| ==> options[k].id != id
    ensures r.Some? ==> exists k :: 0 <= k < |options| && options[k] == r.value && r.value.id == id
                          && forall j :: 0 <= j < k ==> options[j].id != id
  {
    if options == [] then None
    else if options[0].id == id then Some(options[0])
    else
      var r := FindOption(options[1..], id);
      assert forall k :: 1 <= k < |options| ==> options[k] == options[1..][k - 1];
      if r.Some? then
        var k :| 0 <= k < |options[1..]| && options[1..][k] == r.value && r.value.id == id
                 && forall j :: 0 <= j < k ==> options[1..][j].id != id;
        assert options[k + 1] == r.value;
        r
      else r
  }

  // ---------------------------------------------------------------------------
  // Handlers

  /** `handleStartGame`: with a save, resume it on the map; without, go to the
      profile form. */
  function StartGame(w: World): (r: World)
    ensures r.store == w.store
    ensures w.store.save.Some? ==> r.page == w.page.(phase := Map, game := w.store.save.value)
    ensures w.store.save.None? ==> r.page == w.page.(phase := Setup, form := PlayerSetup.NewForm())
  {
    match w.store.save
    case Some(saved) => w.(page := w.page.(phase := Map, game := saved))
    case None => w.(page := w.page.(phase := Setup, form := PlayerSetup.NewForm()))
  }

  /** `handleCloseLeaderboard`: back to the map when a player name is set, else to
      the landing screen. */
  function CloseBoard(w: World): (r: World)
    ensures r == w.(page := w.page.(phase := r.page.phase))
    ensures r.page.phase == Map <==> w.page.game.player.name != ""
    ensures r.page.phase == Landing <==> w.page.game.player.name == ""
  {
    w.(page := w.page.(phase := if w.page.game.player.name != "" then Map else Landing))
  }

  /** `handlePlayerSetup`, reached when the form accepts: the player and a fresh
      start reading go into the game, which is saved, and the map opens. */
  function SubmitProfileStep(w: World, now: int): (r: World)
    ensures PlayerSetup.Submit(w.page.form).1.None? ==>
              r == w.(page := w.page.(form := PlayerSetup.Submit(w.page.form).0))
    ensures PlayerSetup.Submit(w.page.form).1.Some? ==>
              && r.page.phase == Map
              && r.page.game == w.page.game.(player := PlayerSetup.Submit(w.page.form).1.value,
                                              stats := w.page.game.stats.(startTime := now))
              && r.store == w.store.(save := Some(r.page.game))
  {
    var (form, player) := PlayerSetup.Submit(w.page.form);
    match player
    case None => w.(page := w.page.(form := form))
    case Some(p) =>
      var game := w.page.game.(player := p, stats := w.page.game.stats.(startTime := now));
      World(w.page.(phase := Map, game := game, form := form), w.store.(save := Some(game)))
  }

  /** `handleSelectRegion` for a region card the map lets through. The current
      region becomes `region`. With questions pending there, the first one opens.
      With none pending: the next region is unlocked if it is still locked; or, for
      the last region after at least 20 completions, the run completes, from the
      game as it was before the selection (the delayed call captured it), so the
      new current region is lost. */
  function SelectRegionStep(w: World, region: int, catalog: seq<Question>, now: int): (r: World)
    requires w.page.phase == Map && RegionMap.IsRegionId(region)
    ensures r.store == w.store
    ensures var g := w.page.game;
            var moved := g.(progress := g.progress.(currentRegion := region));
            var pending := Pending(catalog, RegionMap.NameOf(region), g.progress.completedChallenges);
            if pending != [] then
              && r.page.phase == Challenge && r.page.game == moved
              && r.page.question == Some(pending[0])
              && r.page.view == ChallengeScreen.Mount(pending[0])
            else if region < RegionMap.LastRegion && region + 1 !in g.progress.unlockedRegions then
              && r.page.phase == Map
              && r.page.game == moved.(progress := moved.progress.(unlockedRegions := g.progress.unlockedRegions + [region + 1]))
            else if region == RegionMap.LastRegion && |g.progress.completedChallenges| >= RunLength then
              r.page.phase == Ending && r.page.game == Complete(g, now)
            else
              r.page == w.page.(game := moved)
  {
    var g := w.page.game;
    var moved := g.(progress := g.progress.(currentRegion := region));
    var pending := Pending(catalog, RegionMap.NameOf(region), moved.progress.completedChallenges);
    if pending == [] then
      if region < 4 && region + 1 !in moved.progress.unlockedRegions then
        var unlocked := moved.(progress := moved.progress.(unlockedRegions := moved.progress.unlockedRegions + [region + 1]));
        w.(page := w.page.(game := unlocked))
      else if region == 4 && |moved.progress.completedChallenges| >= 20 then
        w.(page := w.page.(phase := Ending, game := Complete(g, now)))
      else w.(page := w.page.(game := moved))
    else
      w.(page := w.page.(phase := Challenge, game := moved, question := Some(pending[0]),
                         view := ChallengeScreen.Mount(pending[0])))
  }

  /** `handleAnswer(optionId)`: without a current question, or with an id that no
      option carries, nothing happens; otherwise the option's effect is applied,
      the option is kept for the feedback dialog, and the dialog opens. */
  function Answer(w: World, optionId: string): (r: World)
    ensures r.store == w.store
    ensures w.page.question.None? ==> r == w
    ensures w.page.question.Some? && FindOption(w.page.question.value.options, optionId).None? ==> r == w
    ensures w.page.question.Some? && FindOption(w.page.question.value.options, optionId).Some? ==>
              var q := w.page.question.value;
              var o := FindOption(q.options, optionId).value;
              && r.page.phase == Feedback && r.page.answer == Some(o)
              && r.page.game == ApplyEffect(w.page.game, o.effect, q.id)
              && r.page.question == w.page.question
  {
    match w.page.question
    case None => w
    case Some(q) =>
      match FindOption(q.options, optionId)
      case None => w
      case Some(o) =>
        w.(page := w.page.(phase := Feedback, answer := Some(o), game := ApplyEffect(w.page.game, o.effect, q.id)))
  }

  /** The challenge screen shows a question whose hint button is enabled. */
  predicate HintEnabled(w: World) {
    w.page.question.Some? && ChallengeScreen.HintButtonEnabled(w.page.view, w.page.question.value, w.page.game.inventory.hints)
  }

  /** The hint button of the challenge screen: when it is enabled and its handler
      fires, the screen advances its hint and the page spends a hint. */
  function HintStep(w: World): (r: World)
    ensures r.store == w.store && r.page == w.page.(view := r.page.view, game := r.page.game)
    ensures r.page.game == w.page.game || r.page.game == GM.UseHint(w.page.game)
    ensures !HintEnabled(w) ==> r == w
    ensures HintEnabled(w) && w.page.game.inventory.hints > 0 ==>
              && r.page.game == GM.UseHint(w.page.game)
              && r.page.view == ChallengeScreen.PressHint(w.page.view, w.page.question.value, w.page.game.inventory.hints).0
    ensures r.page.game.inventory.hints + r.page.game.stats.hintsUsed
            == w.page.game.inventory.hints + w.page.game.stats.hintsUsed
  {
    match w.page.question
    case None => w
    case Some(q) =>
      if ChallengeScreen.HintButtonEnabled(w.page.view, q, w.page.game.inventory.hints) then
        var (view, used) := ChallengeScreen.PressHint(w.page.view, q, w.page.game.inventory.hints);
        w.(page := w.page.(view := view, game := if used then GM.UseHint(w.page.game) else w.page.game))
      else w
  }

  /** `handleContinueFromFeedback`: the next pending question of the current region
      opens; with none left the page returns to the map, and after at least 20
      completions the run completes. No region is unlocked here. */
  function ContinueStep(w: World, catalog: seq<Question>, now: int): (r: World)
    ensures r.store == w.store && r.page.answer == None
    ensures r.page.game.progress == w.page.game.progress
    ensures var g := w.page.game;
            var pending := Pending(catalog, RegionMap.NameOf(g.progress.currentRegion), g.progress.completedChallenges);
            if pending != [] then
              && r.page.phase == Challenge && r.page.question == Some(pending[0]) && r.page.game == g
              && r.page.view == ChallengeScreen.Mount(pending[0])
            else if |g.progress.completedChallenges| >= RunLength then
              r.page.phase == Ending && r.page.question == None && r.page.game == Complete(g, now)
            else
              r.page.phase == Map && r.page.question == None && r.page.game == g
  {
    var g := w.page.game;
    var pending := Pending(catalog, RegionMap.NameOf(g.progress.currentRegion), g.progress.completedChallenges);
    if pending != [] then
      w.(page := w.page.(phase := Challenge, answer := None, question := Some(pending[0]),
                         view := ChallengeScreen.Mount(pending[0])))
    else if |g.progress.completedChallenges| >= 20 then
      w.(page := w.page.(phase := Ending, answer := None, question := None, game := Complete(g, now)))
    else
      w.(page := w.page.(phase := Map, answer := None, question := None))
  }

  /** The summary `handleSaveToLeaderboard` hands over: name, score and karma of the
      game, a fresh play time, the ending, and the game's fragment counts (which
      the game manager then replaces). */
  function RunOf(g: GameState, now: int, date: string): (run: RunSummary)
    ensures run.name == g.player.name && run.score == g.stats.score && run.karma == g.stats.karma
    ensures run.ending == GM.CalculateEnding(g.stats.karma, GM.HasAllFragments(g))
    ensures run.time == Complete(g, now).stats.playTime
  {
    var c := GM.FragmentCount(g);
    RunSummary(g.player.name, g.stats.score, g.stats.karma, (now - g.stats.startTime) / 1000, date,
               GM.CalculateEnding(g.stats.karma, GM.HasAllFragments(g)), FragmentTally(c.crown, c.sash))
  }

  /** `handleSaveToLeaderboard`: the leaderboard in storage gains the run. */
  function SaveRunStep(w: World, now: int, date: string, id: string): (r: World)
    ensures r.page == w.page && r.store.save == w.store.save
    ensures r.store.board == GM.SaveToLeaderboard(w.store.board, w.store.save, RunOf(w.page.game, now, date), id)
  {
    w.(store := w.store.(board := GM.SaveToLeaderboard(w.store.board, w.store.save, RunOf(w.page.game, now, date), id)))
  }

  /** The "play again" button: the run is saved to the leaderboard first, then the
      page resets to a new game on the profile form. */
  function PlayAgainStep(w: World, now: int, iso: string, date: string, id: string): (r: World)
    ensures r.store == SaveRunStep(w, now, date, id).store
    ensures r.page.phase == Setup && r.page.game == GM.InitialState(now, iso)
    ensures r.page.question == None && r.page.answer == None && r.page.form == PlayerSetup.NewForm()
  {
    var saved := SaveRunStep(w, now, date, id);
    saved.(page := saved.page.(phase := Setup, game := GM.InitialState(now, iso), question := None,
                               answer := None, form := PlayerSetup.NewForm()))
  }

  /** The handler an intent runs, before the auto-save effect: each screen
      handles the intents it offers. */
  function Handle(w: World, i: Intent): (r: World)
    ensures !Offered(w.page.phase, i) ==> r == w
  {
    match w.page.phase
    case Landing => OnLanding(w, i)
    case Leaderboard => OnLeaderboard(w, i)
    case Setup => OnSetup(w, i)
    case Map => OnMap(w, i)
    case Challenge => OnChallenge(w, i)
    case Feedback => OnFeedback(w, i)
    case Ending => OnEnding(w, i)
  }

  /** The leaderboard dialog: close it. */
  function OnLeaderboard(w: World, i: Intent): World {
    match i
    case CloseLeaderboard => CloseBoard(w)
    case _ => w
  }

  /** The landing screen: start, or open the leaderboard. */
  function OnLanding(w: World, i: Intent): World {
    match i
    case Start => StartGame(w)
    case ShowLeaderboard => w.(page := w.page.(phase := Leaderboard))
    case _ => w
  }

  /** The profile form. */
  function OnSetup(w: World, i: Intent): World {
    match i
    case EditName(name) => w.(page := w.page.(form := PlayerSetup.EditName(w.page.form, name)))
    case ChooseAvatar(avatar) =>
      if avatar in PlayerSetup.Avatars then w.(page := w.page.(form := PlayerSetup.ChooseAvatar(w.page.form, avatar)))
      else w
    case ChooseDifficulty(d) => w.(page := w.page.(form := PlayerSetup.ChooseDifficulty(w.page.form, d)))
    case SubmitProfile(now) => SubmitProfileStep(w, now)
    case _ => w
  }

  /** The region map: a click on a card the map lets through. */
  function OnMap(w: World, i: Intent): World
    requires w.page.phase == Map
  {
    match i
    case SelectRegion(region, catalog, now) =>
      if RegionMap.IsRegionId(region) && RegionMap.Click(w.page.game.progress, region).Some? then
        SelectRegionStep(w, region, catalog, now)
      else w
    case _ => w
  }

  /** The challenge screen: choosing an option of the question, submitting,
      the hint button and the countdown. */
  function OnChallenge(w: World, i: Intent): World {
    match i
    case ChooseOption(id) =>
      if w.page.question.Some? && FindOption(w.page.question.value.options, id).Some? then
        w.(page := w.page.(view := ChallengeScreen.Choose(w.page.view, id)))
      else w
    case SubmitAnswer =>
      (match ChallengeScreen.Submit(w.page.view)
       case Some(id) => Answer(w, id)
       case None => w)
    case RequestHint => HintStep(w)
    case Tick =>
      (match w.page.question
       case Some(q) => w.(page := w.page.(view := ChallengeScreen.Tick(w.page.view, q.timeLimit)))
       case None => w)
    case _ => w
  }

  /** The feedback dialog: continue. */
  function OnFeedback(w: World, i: Intent): World {
    match i
    case Continue(catalog, now) => ContinueStep(w, catalog, now)
    case _ => w
  }

  /** The ending screen: save the run, or play again. */
  function OnEnding(w: World, i: Intent): World {
    match i
    case SaveRun(now, date, id) => SaveRunStep(w, now, date, id)
    case PlayAgain(now, iso, date, id) => PlayAgainStep(w, now, iso, date, id)
    case _ => w
  }

  /** The phases in which the page persists its game. */
  predicate Persists(p: Phase) {
    p != Landing && p != Setup
  }

  /** The auto-save effect: outside the landing and setup screens the current game
      is written to the save slot. */
  function AutoSave(w: World): (r: World)
    ensures r.page == w.page && r.store.board == w.store.board
    ensures Persists(w.page.phase) ==> r.store.save == Some(w.page.game)
    ensures !Persists(w.page.phase) ==> r.store == w.store
  {
    if Persists(w.page.phase) then w.(store := w.store.(save := Some(w.page.game))) else w
  }

  /** One user action or timer event, followed by the auto-save effect. */
  function Step(w: World, i: Intent): (r: World)
    ensures r.page == Handle(w, i).page && r.store.board == Handle(w, i).store.board
    ensures Persists(r.page.phase) ==> r.store.save == Some(r.page.game)
    ensures !Persists(r.page.phase) ==> r.store.save == Handle(w, i).store.save
  {
    AutoSave(Handle(w, i))
  }

  /** A run of intents from a given world. */
  function Run(w: World, intents: seq<Intent>): World
    decreases |intents|
  {
    if intents == [] then w else Run(Step(w, intents[0]), intents[1..])
  }

  // ---------------------------------------------------------------------------
  // Properties of single steps

  /** Only a step that ends outside landing and setup changes the save slot, and it
      leaves there the game on screen. */
  lemma {:induction false} SaveFollowsThePage(w: World, i: Intent)
    ensures var r := Step(w, i);
            r.store.save != w.store.save ==> Persists(r.page.phase) && r.store.save == Some(r.page.game)
  {
  }

  /** The leaderboard changes only through the two buttons of the ending screen. */
  lemma {:induction false} BoardChangesOnlyAtTheEnd(w: World, i: Intent)
    ensures Step(w, i).store.board != w.store.board ==> w.page.phase == Ending && (i.SaveRun? || i.PlayAgain?)
  {
  }

  /** Apart from resuming a save and starting over, no step takes back a completed
      question: the completed list only grows at its end. */
  lemma {:induction false} CompletedOnlyGrows(w: World, i: Intent)
    requires !i.Start? && !i.PlayAgain?
    ensures var before := w.page.game.progress.completedChallenges;
            var after := Step(w, i).page.game.progress.completedChallenges;
            |before| <= |after| && after[..|before|] == before
  {
    var before := w.page.game.progress.completedChallenges;
    var after := Handle(w, i).page.game.progress.completedChallenges;
    if Offered(w.page.phase, i) && i.SubmitAnswer? && w.page.question.Some? {
      var q := w.page.question.value;
      assert after == before || after == before + [q.id];
      assert (before + [q.id])[..|before|] == before;
    } else {
      HandleKeepsCompleted(w, i);
    }
  }

  /** Every step but answering, resuming and starting over leaves the completed
      list as it is. */
  lemma {:induction false} HandleKeepsCompleted(w: World, i: Intent)
    requires !i.Start? && !i.PlayAgain?
    requires !(Offered(w.page.phase, i) && i.SubmitAnswer? && w.page.question.Some?)
    ensures Handle(w, i).page.game.progress.completedChallenges == w.page.game.progress.completedChallenges
  {
    if Offered(w.page.phase, i) {
      match i
      case SelectRegion(region, catalog, now) =>
        if RegionMap.IsRegionId(region) && RegionMap.Click(w.page.game.progress, region).Some? {
          assert Handle(w, i) == SelectRegionStep(w, region, catalog, now);
        }
      case SubmitProfile(now) =>
        assert Handle(w, i) == SubmitProfileStep(w, now);
      case Continue(catalog, now) =>
        assert Handle(w, i) == ContinueStep(w, catalog, now);
      case SubmitAnswer =>
        assert Handle(w, i) == w;
      case RequestHint =>
        assert Handle(w, i) == HintStep(w);
        HintKeepsProgress(w);
      case _ =>
    }
  }

  /** A hint press leaves the progress alone. */
  lemma {:induction false} HintKeepsProgress(w: World)
    ensures HintStep(w).page.game.progress == w.page.game.progress
  {
  }

  /** Apart from resuming a save and starting over, the unlocked list changes only
      when a finished region is selected on the map whose successor is still
      locked; the successor is then appended. */
  lemma {:induction false} UnlockOnlyBySelection(w: World, i: Intent)
    requires !i.Start? && !i.PlayAgain?
    ensures var u := w.page.game.progress.unlockedRegions;
            var after := Step(w, i).page.game.progress.unlockedRegions;
            after == u
            || (&& w.page.phase == Map && i.SelectRegion?
                && i.region in u && i.region + 1 !in u && i.region < RegionMap.LastRegion
                && Pending(i.catalog, RegionMap.NameOf(i.region), w.page.game.progress.completedChallenges) == []
                && after == u + [i.region + 1])
  {
  }

  /** The continue button never unlocks a region, however the run stands. */
  lemma {:induction false} ContinueNeverUnlocks(w: World, catalog: seq<Question>, now: int)
    ensures Step(w, Continue(catalog, now)).page.game.progress.unlockedRegions
            == w.page.game.progress.unlockedRegions
  {
  }

  /** Completing the run from the last region keeps the current region of before
      the selection: selecting region 4 from elsewhere ends the run with the old
      current region still recorded, in the game shown and the game saved. */
  lemma {:induction false} FinalSelectionIsForgotten(w: World, catalog: seq<Question>, now: int)
    requires w.page.phase == Map && RegionMap.IsUnlocked(w.page.game.progress, RegionMap.LastRegion)
    requires Pending(catalog, RegionMap.NameOf(RegionMap.LastRegion), w.page.game.progress.completedChallenges) == []
    requires |w.page.game.progress.completedChallenges| >= RunLength
    ensures var r := Step(w, SelectRegion(RegionMap.LastRegion, catalog, now));
            && r.page.phase == Ending
            && r.page.game.progress.currentRegion == w.page.game.progress.currentRegion
            && r.store.save == Some(r.page.game)
  {
  }

  /** From a first visit with empty storage, opening and closing the leaderboard and
      then pressing start reaches the map with no player name: the visit to the
      leaderboard auto-saves the new game, and start then resumes it instead of
      opening the profile form. */
  lemma {:induction false} LeaderboardDetourSkipsSetup(now: int, iso: string)
    ensures var w := Run(Open(Store(None, []), now, iso), [ShowLeaderboard, CloseLeaderboard, Start]);
            && w.page.phase == Map
            && w.page.game == GM.InitialState(now, iso)
            && w.page.game.player.name == ""
  {
    var w0 := Open(Store(None, []), now, iso);
    var w1 := Step(w0, ShowLeaderboard);
    assert w1.store.save == Some(GM.InitialState(now, iso));
    var w2 := Step(w1, CloseLeaderboard);
    assert w2.page.phase == Landing;
    var w3 := Step(w2, Start);
    assert w3.page.phase == Map;
    var steps := [ShowLeaderboard, CloseLeaderboard, Start];
    assert steps[1..] == [CloseLeaderboard, Start] && steps[1..][1..] == [Start] && steps[1..][1..][1..] == [];
    assert Run(w0, steps) == w3;
  }

  /** Without that detour, start on empty storage opens the profile form. */
  lemma {:induction false} FirstStartOpensSetup(now: int, iso: string)
    ensures Step(Open(Store(None, []), now, iso), Start).page.phase == Setup
  {
  }
}

=== FILE: session_invariants.dfy ===
/** What every world reachable through the page's handlers satisfies, for a fixed
    question catalog that the game manager hands out in a different order on every
    call. */
module SessionInvariants {
  import opened Wrappers
  import opened GameTypes
  import GM = GameManager
  import RegionMap
  import ChallengeScreen
  import PlayerSetup
  import Ranking
  import Text
  import opened Session

  /** Region progress: the unlocked list is exactly 1, 2, ..., n for some n in
      1..4, each region after the first being open only once every question of the
      region before it is completed; the current region is one from the table; and
      no question id is completed twice. */
  predicate ProgressOk(p: Progress, catalog: seq<Question>) {
    && 1 <= |p.unlockedRegions| <= RegionMap.LastRegion
    && (forall k :: 0 <= k < |p.unlockedRegions| ==> p.unlockedRegions[k] == k + 1)
    && (forall k :: 1 <= k < |p.unlockedRegions| ==>
          Pending(catalog, RegionMap.NameOf(k), p.completedChallenges) == [])
    && RegionMap.IsRegionId(p.currentRegion)
    && (forall j, k :: 0 <= j < k < |p.completedChallenges| ==>
          p.completedChallenges[j] != p.completedChallenges[k])
  }

  /** A well-formed game: sound numbers and tracks, well-formed progress. */
  predicate GameOk(g: GameState, catalog: seq<Question>) {
    GM.Sound(g) && ProgressOk(g.progress, catalog)
  }

  /** A question that may be open: from the catalog, of the current region, and
      not yet completed. */
  predicate Open(q: Question, g: GameState, catalog: seq<Question>) {
    && q in catalog
    && Some(q.region) == RegionMap.NameOf(g.progress.currentRegion)
    && q.id !in g.progress.completedChallenges
  }

  /** The page: a well-formed game; during a challenge an open question whose hint
      state is reachable; in the feedback dialog the answered question, now
      completed, and one of its options; on the ending screen at least 20
      completions. */
  predicate PageOk(pg: Page, catalog: seq<Question>) {
    && GameOk(pg.game, catalog)
    && (pg.phase == Challenge ==>
          && pg.question.Some?
          && Open(pg.question.value, pg.game, catalog)
          && ChallengeScreen.HintsReachable(pg.view, pg.question.value))
    && (pg.phase == Feedback ==>
          && pg.question.Some? && pg.answer.Some?
          && pg.question.value.id in pg.game.progress.completedChallenges
          && pg.answer.value in pg.question.value.options)
    && (pg.phase == Ending ==> |pg.game.progress.completedChallenges| >= RunLength)
  }

  /** Storage: a well-formed saved game, and a leaderboard sorted by score, highest
      first, of at most 50 entries. */
  predicate StoreOk(s: Store, catalog: seq<Question>) {
    && (s.save.Some? ==> GameOk(s.save.value, catalog))
    && Ranking.SortedByScore(s.board)
    && |s.board| <= Ranking.Capacity
  }

  /** The whole invariant; outside landing and setup the save slot holds exactly
      the game on screen. */
  predicate Good(w: World, catalog: seq<Question>) {
    && PageOk(w.page, catalog)
    && StoreOk(w.store, catalog)
    && (Persists(w.page.phase) ==> w.store.save == Some(w.page.game))
  }

  /** The catalog an intent carries is a reordering of the fixed one. */
  predicate Reorders(c: seq<Question>, catalog: seq<Question>) {
    (forall q :: q in c ==> q in catalog) && (forall q :: q in catalog ==> q in c)
  }

  predicate Fits(i: Intent, catalog: seq<Question>) {
    match i
    case SelectRegion(_, c, _) => Reorders(c, catalog)
    case Continue(c, _) => Reorders(c, catalog)
    case _ => true
  }

  // ---------------------------------------------------------------------------
  // Establishing the invariant

  /** A new game is well-formed for any catalog. */
  lemma {:induction false} InitialGameOk(now: int, iso: string, catalog: seq<Question>)
    ensures GameOk(GM.InitialState(now, iso), catalog)
  {
    var g := GM.InitialState(now, iso);
    assert g.progress == Progress(1, [], [1]);
    assert GM.Sound(g);
  }

  /** The page as it mounts over well-formed storage satisfies the invariant. */
  lemma {:induction false} OpenIsGood(store: Store, now: int, iso: string, catalog: seq<Question>)
    requires StoreOk(store, catalog)
    ensures Good(Session.Open(store, now, iso), catalog)
  {
    InitialGameOk(now, iso, catalog);
  }

  // ---------------------------------------------------------------------------
  // Helpers about pending questions and progress

  /** In the list 1, 2, ..., n, exactly the numbers 1..n occur. */
  lemma {:induction false} CountingUp(u: seq<int>, x: int)
    requires forall k :: 0 <= k < |u| ==> u[k] == k + 1
    ensures x in u <==> 1 <= x <= |u|
  {
    if 1 <= x <= |u| {
      assert u[x - 1] == x;
    }
  }

  /** Completing one more id never brings a question back to pending. */
  lemma {:induction false} PendingStaysEmpty(catalog: seq<Question>, region: Option<RegionName>, done: seq<string>, id: string)
    requires Pending(catalog, region, done) == []
    ensures Pending(catalog, region, done + [id]) == []
  {
    if catalog != [] {
      PendingStaysEmpty(catalog[1..], region, done, id);
    }
  }

  /** Appending the id of an open question keeps progress well-formed. */
  lemma {:induction false} CompleteOpenKeepsProgress(p: Progress, q: Question, catalog: seq<Question>)
    requires ProgressOk(p, catalog) && q.id !in p.completedChallenges
    ensures ProgressOk(p.(completedChallenges := p.completedChallenges + [q.id]), catalog)
  {
    var c := p.completedChallenges + [q.id];
    forall k | 1 <= k < |p.unlockedRegions|
      ensures Pending(catalog, RegionMap.NameOf(k), c) == []
    {
      PendingStaysEmpty(catalog, RegionMap.NameOf(k), p.completedChallenges, q.id);
    }
    forall j, k | 0 <= j < k < |c|
      ensures c[j] != c[k]
    {
      if k == |c| - 1 {
        assert c[j] in p.completedChallenges;
      }
    }
  }

  /** The effect of an answer keeps the game sound. */
  lemma {:induction false} EffectKeepsSound(g: GameState, e: Effect, qid: string)
    requires GM.Sound(g)
    ensures GM.Sound(ApplyEffect(g, e, qid))
  {
    var scored := GM.UpdateScore(g, e.score);
    GM.UpdateScoreMonotone(g, e.score, e.score);
    var karmic := GM.UpdateKarma(scored, e.karma);
    GM.UpdateKarmaSound(scored, e.karma);
    match e.item
    case None =>
    case Some(it) =>
      if Text.StartsWith(it, "fragment") {
        GM.AddFragmentCount(karmic, it);
      }
  }

  // ---------------------------------------------------------------------------
  // Each handler keeps the page and storage well-formed

  /** The invariant minus the auto-save clause, which `AutoSave` restores. */
  predicate Kept(w: World, catalog: seq<Question>) {
    PageOk(w.page, catalog) && StoreOk(w.store, catalog)
  }

  lemma {:induction false} SelectRegionKeeps(w: World, region: int, c: seq<Question>, now: int, catalog: seq<Question>)
    requires Good(w, catalog) && Reorders(c, catalog)
    requires w.page.phase == Map && RegionMap.IsRegionId(region) && RegionMap.IsUnlocked(w.page.game.progress, region)
    ensures Kept(SelectRegionStep(w, region, c, now), catalog)
  {
    var g := w.page.game;
    var p := g.progress;
    var u := p.unlockedRegions;
    var name := RegionMap.NameOf(region);
    var pending := Pending(c, name, p.completedChallenges);
    var r := SelectRegionStep(w, region, c, now);
    var moved := p.(currentRegion := region);
    assert ProgressOk(moved, catalog);
    if pending != [] {
      assert pending[0] in pending;
      ChallengeScreen.MountIsReachable(pending[0]);
    } else if region < RegionMap.LastRegion && region + 1 !in u {
      UnlockKeepsProgress(p, region, c, catalog);
      assert r.page.game.progress == moved.(unlockedRegions := u + [region + 1]);
    }
  }

  /** Unlocking the region after a finished, unlocked region keeps the progress
      well-formed. */
  lemma {:induction false} UnlockKeepsProgress(p: Progress, region: int, c: seq<Question>, catalog: seq<Question>)
    requires ProgressOk(p, catalog) && Reorders(c, catalog)
    requires RegionMap.IsRegionId(region) && region in p.unlockedRegions
    requires region < RegionMap.LastRegion && region + 1 !in p.unlockedRegions
    requires Pending(c, RegionMap.NameOf(region), p.completedChallenges) == []
    ensures ProgressOk(p.(currentRegion := region, unlockedRegions := p.unlockedRegions + [region + 1]), catalog)
  {
    var u := p.unlockedRegions;
    CountingUp(u, region);
    CountingUp(u, region + 1);
    PendingIgnoresOrder(c, catalog, RegionMap.NameOf(region), p.completedChallenges);
  }

  lemma {:induction false} AnswerKeeps(w: World, id: string, catalog: seq<Question>)
    requires Good(w, catalog) && w.page.phase == Challenge
    ensures Kept(Answer(w, id), catalog)
  {
    var q := w.page.question.value;
    var found := FindOption(q.options, id);
    if found.Some? {
      var g := w.page.game;
      EffectKeepsSound(g, found.value.effect, q.id);
      CompleteOpenKeepsProgress(g.progress, q, catalog);
      assert ApplyEffect(g, found.value.effect, q.id).progress
          == g.progress.(completedChallenges := g.progress.completedChallenges + [q.id]);
    }
  }

  lemma {:induction false} HintKeeps(w: World, catalog: seq<Question>)
    requires Good(w, catalog) && w.page.phase == Challenge
    ensures Kept(HintStep(w), catalog)
  {
    var q := w.page.question.value;
    var hints := w.page.game.inventory.hints;
    if ChallengeScreen.HintButtonEnabled(w.page.view, q, hints) {
      ChallengeScreen.PressKeepsReachable(w.page.view, q, hints);
      GM.UseHintSound(w.page.game);
    }
  }

  lemma {:induction false} ContinueKeeps(w: World, c: seq<Question>, now: int, catalog: seq<Question>)
    requires Good(w, catalog) && Reorders(c, catalog) && w.page.phase == Feedback
    ensures Kept(ContinueStep(w, c, now), catalog)
  {
    var g := w.page.game;
    var pending := Pending(c, RegionMap.NameOf(g.progress.currentRegion), g.progress.completedChallenges);
    if pending != [] {
      assert pending[0] in pending;
      ChallengeScreen.MountIsReachable(pending[0]);
    }
  }

  lemma {:induction false} SaveRunKeeps(w: World, now: int, date: string, id: string, catalog: seq<Question>)
    requires Good(w, catalog)
    ensures Kept(SaveRunStep(w, now, date, id), catalog)
  {
  }

  lemma {:induction false} PlayAgainKeeps(w: World, now: int, iso: string, date: string, id: string, catalog: seq<Question>)
    requires Good(w, catalog)
    ensures Kept(PlayAgainStep(w, now, iso, date, id), catalog)
  {
    InitialGameOk(now, iso, catalog);
  }

  lemma {:induction false} ProfileKeeps(w: World, now: int, catalog: seq<Question>)
    requires Good(w, catalog) && w.page.phase == Setup
    ensures Kept(SubmitProfileStep(w, now), catalog)
  {
  }

  /** Every handler keeps page and storage well-formed. */
  lemma {:induction false} HandleKeeps(w: World, i: Intent, catalog: seq<Question>)
    requires Good(w, catalog) && Fits(i, catalog)
    ensures Kept(Handle(w, i), catalog)
  {
    match w.page.phase
    case Landing => LandingKeeps(w, i, catalog);
    case Leaderboard =>
    case Setup => SetupKeeps(w, i, catalog);
    case Map => MapKeeps(w, i, catalog);
    case Challenge => ChallengeKeeps(w, i, catalog);
    case Feedback => FeedbackKeeps(w, i, catalog);
    case Ending => EndingKeeps(w, i, catalog);
  }

  /** The landing screen keeps the invariant. */
  lemma {:induction false} LandingKeeps(w: World, i: Intent, catalog: seq<Question>)
    requires Good(w, catalog) && w.page.phase == Landing
    ensures Kept(OnLanding(w, i), catalog)
  {
  }

  /** The profile form keeps the invariant. */
  lemma {:induction false} SetupKeeps(w: World, i: Intent, catalog: seq<Question>)
    requires Good(w, catalog) && w.page.phase == Setup
    ensures Kept(OnSetup(w, i), catalog)
  {
    match i
    case EditName(name) => PageOkIgnoresForm(w.page, PlayerSetup.EditName(w.page.form, name), catalog);
    case ChooseAvatar(a) => PageOkIgnoresForm(w.page, PlayerSetup.ChooseAvatar(w.page.form, a), catalog);
    case ChooseDifficulty(d) => PageOkIgnoresForm(w.page, PlayerSetup.ChooseDifficulty(w.page.form, d), catalog);
    case SubmitProfile(now) => ProfileKeeps(w, now, catalog);
    case _ =>
  }

  /** The form plays no part in the invariant. */
  lemma {:induction false} PageOkIgnoresForm(pg: Page, f: PlayerSetup.Form, catalog: seq<Question>)
    requires PageOk(pg, catalog)
    ensures PageOk(pg.(form := f), catalog)
  {
    var p := pg.(form := f);
    assert p.game == pg.game && p.phase == pg.phase && p.question == pg.question;
    assert p.view == pg.view && p.answer == pg.answer;
  }

  /** The region map keeps the invariant. */
  lemma {:induction false} MapKeeps(w: World, i: Intent, catalog: seq<Question>)
    requires Good(w, catalog) && Fits(i, catalog) && w.page.phase == Map
    ensures Kept(OnMap(w, i), catalog)
  {
    match i
    case SelectRegion(region, c, now) =>
      if RegionMap.IsRegionId(region) && RegionMap.Click(w.page.game.progress, region).Some? {
        SelectRegionKeeps(w, region, c, now, catalog);
      }
    case _ =>
  }

  /** The challenge screen keeps the invariant. */
  lemma {:induction false} ChallengeKeeps(w: World, i: Intent, catalog: seq<Question>)
    requires Good(w, catalog) && w.page.phase == Challenge
    ensures Kept(OnChallenge(w, i), catalog)
  {
    match i
    case SubmitAnswer =>
      var sent := ChallengeScreen.Submit(w.page.view);
      if sent.Some? {
        AnswerKeeps(w, sent.value, catalog);
      }
    case RequestHint => HintKeeps(w, catalog);
    case _ =>
  }

  /** The feedback dialog keeps the invariant. */
  lemma {:induction false} FeedbackKeeps(w: World, i: Intent, catalog: seq<Question>)
    requires Good(w, catalog) && Fits(i, catalog) && w.page.phase == Feedback
    ensures Kept(OnFeedback(w, i), catalog)
  {
    match i
    case Continue(c, now) => ContinueKeeps(w, c, now, catalog);
    case _ =>
  }

  /** The ending screen keeps the invariant. */
  lemma {:induction false} EndingKeeps(w: World, i: Intent, catalog: seq<Question>)
    requires Good(w, catalog) && w.page.phase == Ending
    ensures Kept(OnEnding(w, i), catalog)
  {
    match i
    case SaveRun(now, date, id) =>
      EndingSaveRun(w, now, date, id);
      SaveRunKeeps(w, now, date, id, catalog);
    case PlayAgain(now, iso, date, id) =>
      EndingPlayAgain(w, now, iso, date, id);
      PlayAgainKeeps(w, now, iso, date, id, catalog);
    case _ =>
  }

  /** Every step keeps the invariant. */
  lemma {:induction false} StepKeepsGood(w: World, i: Intent, catalog: seq<Question>)
    requires Good(w, catalog) && Fits(i, catalog)
    ensures Good(Step(w, i), catalog)
  {
    HandleKeeps(w, i, catalog);
  }

  /** Every run of intents keeps the invariant. */
  lemma {:induction false} RunKeepsGood(w: World, intents: seq<Intent>, catalog: seq<Question>)
    requires Good(w, catalog)
    requires forall k :: 0 <= k < |intents| ==> Fits(intents[k], catalog)
    ensures Good(Run(w, intents), catalog)
    decreases |intents|
  {
    if intents != [] {
      StepKeepsGood(w, intents[0], catalog);
      RunKeepsGood(Step(w, intents[0]), intents[1..], catalog);
    }
  }

  // ---------------------------------------------------------------------------
  // Consequences for reachable worlds

  /** On the ending screen the save slot holds the game on screen, so the entry the
      save button records carries that game's own fragment counts, even though the
      game manager reads them from storage rather than from the summary. */
  lemma {:induction false} SavedRunCountsTheGame(w: World, now: int, date: string, id: string, catalog: seq<Question>)
    requires Good(w, catalog) && w.page.phase == Ending
    ensures var g := w.page.game;
            var e := GM.NewEntry(w.store.save, RunOf(g, now, date), id);
            && e.fragments == FragmentTally(GM.FragmentCount(g).crown, GM.FragmentCount(g).sash)
            && e.name == g.player.name && e.score == g.stats.score && e.karma == g.stats.karma
            && e.ending == GM.CalculateEnding(g.stats.karma, GM.HasAllFragments(g))
            && Step(w, SaveRun(now, date, id)).store.board
               == GM.SaveToLeaderboard(w.store.board, w.store.save, RunOf(g, now, date), id)
  {
    assert Persists(w.page.phase);
    SaveIsTheGame(w, catalog);
    SaveRunOnEnding(w, now, date, id);
    EntryOfOwnRun(w.page.game, now, date, id);
  }

  /** The entry stored for a game's own run, with that game saved. */
  lemma {:induction false} EntryOfOwnRun(g: GameState, now: int, date: string, id: string)
    ensures var e := GM.NewEntry(Some(g), RunOf(g, now, date), id);
            && e.fragments == FragmentTally(GM.FragmentCount(g).crown, GM.FragmentCount(g).sash)
            && e.name == g.player.name && e.score == g.stats.score && e.karma == g.stats.karma
            && e.ending == GM.CalculateEnding(g.stats.karma, GM.HasAllFragments(g))
  {
    var e := GM.NewEntry(Some(g), RunOf(g, now, date), id);
    assert e.fragments.crown == GM.FragmentCount(g).crown && e.fragments.sash == GM.FragmentCount(g).sash;
  }

  /** Outside landing and setup the save slot holds the game on screen. */
  lemma {:induction false} SaveIsTheGame(w: World, catalog: seq<Question>)
    requires Good(w, catalog) && Persists(w.page.phase)
    ensures w.store.save == Some(w.page.game)
  {
  }

  /** "Play again" records the finished run before resetting: on a board with room
      the entry of the finished game is stored, and the page holds a new game on
      the profile form. */
  lemma {:induction false} PlayAgainRecordsFinishedRun(w: World, now: int, iso: string, date: string, id: string, catalog: seq<Question>)
    requires Good(w, catalog) && w.page.phase == Ending && |w.store.board| < Ranking.Capacity
    ensures var r := Step(w, PlayAgain(now, iso, date, id));
            var g := w.page.game;
            && GM.NewEntry(Some(g), RunOf(g, now, date), id) in r.store.board
            && r.page.phase == Setup && r.page.game == GM.InitialState(now, iso)
            && r.store.save == Some(g)
  {
    var i := PlayAgain(now, iso, date, id);
    SaveIsTheGame(w, catalog);
    HandleOnEnding(w, i);
    EndingPlayAgain(w, now, iso, date, id);
    var h := PlayAgainStep(w, now, iso, date, id);
    assert Step(w, i) == AutoSave(h);
    assert h.store.board == GM.SaveToLeaderboard(w.store.board, Some(w.page.game), RunOf(w.page.game, now, date), id);
  }

  /** During a challenge the hint on display is never the question's first hint
      slot: the panel shows index 1 or later. */
  lemma {:induction false} ShownHintIsNeverFirst(w: World, catalog: seq<Question>)
    requires Good(w, catalog) && w.page.phase == Challenge
    ensures var q := w.page.question.value;
            ChallengeScreen.ShownHint(w.page.view, q).Some? ==>
              1 <= w.page.view.hintIndex < |q.hints|
              && ChallengeScreen.ShownHint(w.page.view, q) == Some(q.hints[w.page.view.hintIndex])
  {
  }

  /** The save button can be pressed again: two presses on a board with room for
      both store the same entry twice. (In a reachable world the save slot holds the
      game on the ending screen, by `SaveIsTheGame`.) */
  lemma {:induction false} SavingTwiceStoresTwice(w: World, now: int, date: string, id: string)
    requires w.page.phase == Ending && w.store.save == Some(w.page.game)
    requires |w.store.board| + 2 <= Ranking.Capacity
    ensures var e := GM.NewEntry(w.store.save, RunOf(w.page.game, now, date), id);
            var r := Step(Step(w, SaveRun(now, date, id)), SaveRun(now, date, id));
            multiset(r.store.board)[e] == multiset(w.store.board)[e] + 2
  {
    var run := RunOf(w.page.game, now, date);
    SaveRunOnEnding(w, now, date, id);
    SaveRunOnEnding(Step(w, SaveRun(now, date, id)), now, date, id);
    SavingTwiceOnBoard(w.store.board, w.store.save, run, id);
  }

  /** One press of the save button on the ending screen whose save slot holds the
      game: only the leaderboard changes. */
  lemma {:induction false} SaveRunOnEnding(w: World, now: int, date: string, id: string)
    requires w.page.phase == Ending && w.store.save == Some(w.page.game)
    ensures Step(w, SaveRun(now, date, id))
            == w.(store := w.store.(board := GM.SaveToLeaderboard(w.store.board, w.store.save, RunOf(w.page.game, now, date), id)))
  {
    var h := SaveRunStep(w, now, date, id);
    HandleOnEnding(w, SaveRun(now, date, id));
    EndingSaveRun(w, now, date, id);
    AutoSaveOfSaved(h);
  }

  /** On the ending screen, the ending screen handles every intent. */
  lemma {:induction false} HandleOnEnding(w: World, i: Intent)
    requires w.page.phase == Ending
    ensures Handle(w, i) == OnEnding(w, i)
  {
  }

  /** The "play again" button of the ending screen runs its handler. */
  lemma {:induction false} EndingPlayAgain(w: World, now: int, iso: string, date: string, id: string)
    ensures OnEnding(w, PlayAgain(now, iso, date, id)) == PlayAgainStep(w, now, iso, date, id)
  {
  }

  /** The save button of the ending screen runs the save handler. */
  lemma {:induction false} EndingSaveRun(w: World, now: int, date: string, id: string)
    ensures OnEnding(w, SaveRun(now, date, id)) == SaveRunStep(w, now, date, id)
  {
  }

  /** Auto-saving a world whose save slot already holds its game changes nothing. */
  lemma {:induction false} AutoSaveOfSaved(w: World)
    requires w.store.save == Some(w.page.game)
    ensures AutoSave(w) == w
  {
  }

  lemma {:induction false} SavingTwiceOnBoard(board: seq<LeaderboardEntry>, saved: Option<GameState>, run: RunSummary, id: string)
    requires |board| + 2 <= Ranking.Capacity
    ensures var once := GM.SaveToLeaderboard(board, saved, run, id);
            var e := GM.NewEntry(saved, run, id);
            multiset(GM.SaveToLeaderboard(once, saved, run, id))[e] == multiset(board)[e] + 2
  {
    var once := GM.SaveToLeaderboard(board, saved, run, id);
    FullMultiset(board, saved, run, id);
    FullMultiset(once, saved, run, id);
  }

  /** Below capacity nothing is dropped: the list written back holds exactly the
      old entries and the new one. */
  lemma {:induction false} FullMultiset(board: seq<LeaderboardEntry>, saved: Option<GameState>, run: RunSummary, id: string)
    requires |board| < Ranking.Capacity
    ensures multiset(GM.SaveToLeaderboard(board, saved, run, id)) == multiset(board) + multiset{GM.NewEntry(saved, run, id)}
  {
    var r := GM.SaveToLeaderboard(board, saved, run, id);
    var m := multiset(board + [GM.NewEntry(saved, run, id)]);
    assert multiset(r) <= m && |multiset(r)| == |m|;
    SubMultisetOfSameSize(multiset(r), m);
  }

  lemma {:induction false} SubMultisetOfSameSize<T>(a: multiset<T>, b: multiset<T>)
    requires a <= b && |a| == |b|
    ensures a == b
  {
    var d := b - a;
    assert b == a + d;
    assert |d| == 0;
  }
}

=== FILE: text.dfy ===
/** The few JavaScript string primitives the game relies on: the white-space set of
    ECMA-262 (shared by `String.prototype.trim`, the regular-expression class `\s`
    and `parseInt`), `trim`, `length` in UTF-16 code units, `startsWith`,
    `includes` and the first field of `split`. */
module Text {

  /** WhiteSpace or LineTerminator in the sense of ECMA-262: TAB, VT, FF, ZWNBSP,
      the space separators (category Zs) and LF, CR, LS, PS. */
  predicate IsJsSpace(c: char) {
    || c == '\t' || c == '\n' || c == '\U{B}' || c == '\U{C}' || c == '\r'
    || c == ' ' || c == '\U{A0}' || c == '\U{1680}'
    || ('\U{2000}' <= c <= '\U{200A}')
    || c == '\U{2028}' || c == '\U{2029}' || c == '\U{202F}' || c == '\U{205F}'
    || c == '\U{3000}' || c == '\U{FEFF}'
  }

  /** `s.length` in JavaScript: characters outside the Basic Multilingual Plane take
      two UTF-16 code units. */
  function Utf16Length(s: string): (n: nat)
    ensures |s| <= n <= 2 * |s|
  {
    if s == [] then 0 else (if s[0] as int > 0xFFFF then 2 else 1) + Utf16Length(s[1..])
  }

  /** A string without characters above U+FFFF has one code unit per character. */
  lemma {:induction false} Utf16LengthOfBmp(s: string)
    requires forall k :: 0 <= k < |s| ==> s[k] as int <= 0xFFFF
    ensures Utf16Length(s) == |s|
  {
    if s != [] {
      Utf16LengthOfBmp(s[1..]);
    }
  }

  /** The number of white-space characters at the start of `s`. */
  function LeadingSpaces(s: string): (n: nat)
    ensures n <= |s|
    ensures forall k :: 0 <= k < n ==> IsJsSpace(s[k])
    ensures n == |s| || !IsJsSpace(s[n])
  {
    if s != [] && IsJsSpace(s[0]) then LeadingSpaces(s[1..]) + 1 else 0
  }

  /** Removes the leading white space (the first half of `trim`). */
  function TrimStart(s: string): (r: string)
    ensures |r| <= |s| && r == s[|s| - |r|..]
    ensures forall k :: 0 <= k < |s| - |r| ==> IsJsSpace(s[k])
    ensures r == [] || !IsJsSpace(r[0])
  {
    s[LeadingSpaces(s)..]
  }

  /** The number of white-space characters at the end of `s` (what the second half
      of `trim` removes). */
  function TrailingSpaces(s: string): (n: nat)
    ensures n <= |s|
    ensures forall k :: |s| - n <= k < |s| ==> IsJsSpace(s[k])
    ensures n == |s| || !IsJsSpace(s[|s| - n - 1])
  {
    if s != [] && IsJsSpace(s[|s| - 1]) then TrailingSpaces(s[..|s| - 1]) + 1 else 0
  }

  /** `String.prototype.trim`: the infix of `s` that starts where the leading white
      space ends, neither starts nor ends with white space, and leaves only white
      space behind it. */
  function Trim(s: string): (r: string)
    ensures r == [] || (!IsJsSpace(r[0]) && !IsJsSpace(r[|r| - 1]))
    ensures var i := LeadingSpaces(s);
            && i + |r| <= |s| && r == s[i..i + |r|]
            && (forall k :: 0 <= k < i ==> IsJsSpace(s[k]))
            && (forall k :: i + |r| <= k < |s| ==> IsJsSpace(s[k]))
  {
    var i := LeadingSpaces(s);
    var t := TrailingSpaces(s);
    TrimBounds(s, i, t);
    s[i..if i == |s| then |s| else |s| - t]
  }

  /** Cutting `s` after `i` leading and before `t` trailing white-space characters,
      where `i` stops at a non-space: the cut is well placed and what remains starts
      and ends with a non-space. */
  lemma {:induction false} TrimBounds(s: string, i: nat, t: nat)
    requires i <= |s| && (forall k :: 0 <= k < i ==> IsJsSpace(s[k])) && (i == |s| || !IsJsSpace(s[i]))
    requires t <= |s| && (forall k :: |s| - t <= k < |s| ==> IsJsSpace(s[k])) && (t == |s| || !IsJsSpace(s[|s| - t - 1]))
    ensures var j := if i == |s| then |s| else |s| - t;
            && i <= j <= |s|
            && (i < j ==> !IsJsSpace(s[i]) && !IsJsSpace(s[j - 1]))
            && (forall k :: j <= k < |s| ==> IsJsSpace(s[k]))
  {
    if i < |s| && |s| - t <= i {
      assert false;
    }
  }

  /** Trimming twice is trimming once. */
  lemma {:induction false} TrimIdempotent(s: string)
    ensures Trim(Trim(s)) == Trim(s)
  {
    var r := Trim(s);
    assert LeadingSpaces(r) == 0;
    assert TrailingSpaces(r) == 0;
  }

  /** `s.startsWith(p)`. */
  predicate StartsWith(s: string, p: string) {
    |p| <= |s| && s[..|p|] == p
  }

  /** `s.includes(p)`: `p` occurs somewhere in `s`. */
  predicate Contains(s: string, p: string)
    decreases |s|
  {
    StartsWith(s, p) || (s != [] && Contains(s[1..], p))
  }

  /** `Contains` is exactly "some infix of `s` equals `p`". */
  lemma {:induction false} ContainsIsInfix(s: string, p: string)
    ensures Contains(s, p) <==> exists i {:trigger s[i..]} :: 0 <= i <= |s| - |p| && s[i..][..|p|] == p
  {
    if s != [] {
      ContainsIsInfix(s[1..], p);
    }
    if Contains(s, p) {
      if StartsWith(s, p) {
        assert s[0..][..|p|] == p;
      } else {
        var i :| 0 <= i <= |s[1..]| - |p| && s[1..][i..][..|p|] == p;
        assert s[1..][i..] == s[i + 1..];
      }
    }
    if exists i {:trigger s[i..]} :: 0 <= i <= |s| - |p| && s[i..][..|p|] == p {
      var i :| 0 <= i <= |s| - |p| && s[i..][..|p|] == p;
      if i > 0 {
        assert s[1..][i - 1..] == s[i..];
      } else {
        assert s[i..] == s;
      }
    }
  }

  /** The text before the first occurrence of `sep`, i.e. `s.split(sep)[0]`. */
  function UntilChar(s: string, sep: char): (r: string)
    ensures |r| <= |s| && r == s[..|r|]
    ensures sep !in r
    ensures |r| == |s| || s[|r|] == sep
    ensures sep !in s ==> r == s
  {
    if s == [] || s[0] == sep then [] else [s[0]] + UntilChar(s[1..], sep)
  }
}

=== FILE: time_format.dfy ===
/** The four duration labels of the game: `formatTime` of the game manager
    (`h:mm:ss` / `m:ss`), of the ending screen (`Hj Mm Sd`), of the leaderboard
    (`Hj Mm`, seconds dropped) and the countdown clock of the challenge screen
    (`m:ss`). Each is characterised by what a reader recovers from it: the numbers
    it shows, read as base-sixty clock fields. Durations are non-negative whole
    seconds. */
module TimeFormat {
  import opened Numerals

  /** Clock fields read most significant first in base sixty: `[h, m, s]` is
      `h*3600 + m*60 + s` and `[m, s]` is `m*60 + s`. */
  function Sexagesimal(fields: seq<nat>): nat {
    if fields == [] then 0 else Sexagesimal(fields[..|fields| - 1]) * 60 + fields[|fields| - 1]
  }

  /** Minutes and seconds shown below an hour field are proper clock fields. */
  predicate Canonical(fields: seq<nat>) {
    forall i :: 1 <= i < |fields| ==> fields[i] < 60
  }

  function Hours(seconds: nat): nat { seconds / 3600 }
  function MinutesOfHour(seconds: nat): nat { (seconds % 3600) / 60 }
  function SecondsOfMinute(seconds: nat): nat { seconds % 60 }

  /** The three parts recombine to the duration and each stays in its range. */
  lemma {:induction false} ClockParts(seconds: nat)
    ensures Hours(seconds) * 3600 + MinutesOfHour(seconds) * 60 + SecondsOfMinute(seconds) == seconds
    ensures MinutesOfHour(seconds) < 60 && SecondsOfMinute(seconds) < 60
    ensures Hours(seconds) > 0 <==> seconds >= 3600
  {
  }

  /** `formatTime` of the game manager: `h:mm:ss` from one hour on, `m:ss` below. */
  function FormatTime(seconds: nat): string {
    var hours := Hours(seconds);
    if hours > 0 then
      Decimal(hours) + (":" + (TwoDigits(MinutesOfHour(seconds)) + (":" + TwoDigits(SecondsOfMinute(seconds)))))
    else
      Decimal(MinutesOfHour(seconds)) + (":" + TwoDigits(SecondsOfMinute(seconds)))
  }

  /** `formatTime` of the ending screen: `Hj Mm Sd`, the hour part only from one hour on. */
  function EndingFormatTime(seconds: nat): string {
    var hours := Hours(seconds);
    if hours > 0 then
      Decimal(hours) + ("j " + (Decimal(MinutesOfHour(seconds)) + ("m " + (Decimal(SecondsOfMinute(seconds)) + "d"))))
    else
      Decimal(MinutesOfHour(seconds)) + ("m " + (Decimal(SecondsOfMinute(seconds)) + "d"))
  }

  /** `formatTime` of the leaderboard: `Hj Mm`, the hour part only from one hour on. */
  function BoardFormatTime(seconds: nat): string {
    var hours := Hours(seconds);
    if hours > 0 then Decimal(hours) + ("j " + (Decimal(MinutesOfHour(seconds)) + "m"))
    else Decimal(MinutesOfHour(seconds)) + "m"
  }

  /** The countdown label of the challenge screen: whole minutes, a colon, and the
      seconds padded to two digits. The minutes are not reduced modulo an hour. */
  function ClockLabel(timeLeft: nat): string {
    Decimal(timeLeft / 60) + (":" + TwoDigits(timeLeft % 60))
  }

  predicate IsNumber(d: string) {
    1 <= |d| && AllDigits(d, Ten)
  }

  predicate NoDigits(lit: string) {
    forall k :: 0 <= k < |lit| ==> !IsDecimalDigit(lit[k])
  }

  /** A number, then a separator: one field. */
  lemma {:induction false} FieldsOfOne(d: string, sep: string)
    requires IsNumber(d) && NoDigits(sep)
    ensures ReadFields(d + sep) == [ValueOf(d, Ten)]
  {
    ReadFieldsOfNumber(d, sep);
    assert sep == sep + [];
    ReadFieldsOfLiteral(sep, []);
  }

  /** A number, then a non-empty separator, then more text: one field in front of
      the fields of the rest. */
  lemma {:induction false} FieldsOfCons(d: string, sep: string, rest: string)
    requires IsNumber(d) && 1 <= |sep| && NoDigits(sep)
    ensures ReadFields(d + (sep + rest)) == [ValueOf(d, Ten)] + ReadFields(rest)
  {
    ReadFieldsOfNumber(d, sep + rest);
    ReadFieldsOfLiteral(sep, rest);
  }

  lemma {:induction false} SexagesimalOfTwo(a: nat, b: nat)
    ensures Sexagesimal([a, b]) == a * 60 + b
  {
    assert [a, b][..1] == [a];
    assert [a][..0] == [];
    assert Sexagesimal([a]) == a;
  }

  lemma {:induction false} SexagesimalOfThree(a: nat, b: nat, c: nat)
    ensures Sexagesimal([a, b, c]) == a * 3600 + b * 60 + c
  {
    assert [a, b, c][..2] == [a, b];
    SexagesimalOfTwo(a, b);
  }

  lemma {:induction false} TwoDigitsIsNumber(n: nat)
    ensures IsNumber(TwoDigits(n)) && ValueOf(TwoDigits(n), Ten) == n
  {
    TwoDigitsReadsBack(n);
  }

  /** The fields of `h:mm:ss`. */
  lemma {:induction false} ColonFieldsThree(h: nat, m: nat, s: nat)
    ensures ReadFields(Decimal(h) + (":" + (TwoDigits(m) + (":" + TwoDigits(s))))) == [h, m, s]
  {
    TwoDigitsIsNumber(m);
    ColonPair(TwoDigits(m), s);
    FieldsOfCons(Decimal(h), ":", TwoDigits(m) + (":" + TwoDigits(s)));
  }

  /** The fields of `m:ss`. */
  lemma {:induction false} ColonFieldsTwo(m: nat, s: nat)
    ensures ReadFields(Decimal(m) + (":" + TwoDigits(s))) == [m, s]
  {
    ColonPair(Decimal(m), s);
  }

  /** A number, a colon and a two-digit field. */
  lemma {:induction false} ColonPair(d: string, s: nat)
    requires IsNumber(d)
    ensures ReadFields(d + (":" + TwoDigits(s))) == [ValueOf(d, Ten), s]
  {
    TwoDigitsIsNumber(s);
    NumberColonNumber(d, TwoDigits(s));
  }

  /** Two numbers around a colon: two fields. */
  lemma {:induction false} NumberColonNumber(d: string, t: string)
    requires IsNumber(d) && IsNumber(t)
    ensures ReadFields(d + (":" + t)) == [ValueOf(d, Ten), ValueOf(t, Ten)]
  {
    assert ReadFields(t) == [ValueOf(t, Ten)] by {
      assert t == t + "";
      FieldsOfOne(t, "");
    }
    FieldsOfCons(d, ":", t);
  }

  /** The fields of `Hj Mm Sd`. */
  lemma {:induction false} UnitFieldsThree(h: nat, m: nat, s: nat)
    ensures ReadFields(Decimal(h) + ("j " + (Decimal(m) + ("m " + (Decimal(s) + "d"))))) == [h, m, s]
  {
    UnitFieldsTwo(m, s);
    FieldsOfCons(Decimal(h), "j ", Decimal(m) + ("m " + (Decimal(s) + "d")));
  }

  /** The fields of `Mm Sd`. */
  lemma {:induction false} UnitFieldsTwo(m: nat, s: nat)
    ensures ReadFields(Decimal(m) + ("m " + (Decimal(s) + "d"))) == [m, s]
  {
    FieldsOfOne(Decimal(s), "d");
    FieldsOfCons(Decimal(m), "m ", Decimal(s) + "d");
  }

  /** The fields of `Hj Mm`. */
  lemma {:induction false} UnitFieldsHoursMinutes(h: nat, m: nat)
    ensures ReadFields(Decimal(h) + ("j " + (Decimal(m) + "m"))) == [h, m]
  {
    FieldsOfOne(Decimal(m), "m");
    FieldsOfCons(Decimal(h), "j ", Decimal(m) + "m");
  }

  /** The fields of `Mm`. */
  lemma {:induction false} UnitFieldsMinutes(m: nat)
    ensures ReadFields(Decimal(m) + "m") == [m]
  {
    FieldsOfOne(Decimal(m), "m");
  }

  /** The game manager's label shows the duration exactly, and shows an hour field
      exactly when the duration reaches one hour. */
  lemma {:induction false} FormatTimeReadsBack(seconds: nat)
    ensures var f := ReadFields(FormatTime(seconds));
            && Sexagesimal(f) == seconds && Canonical(f)
            && (|f| == 3 <==> seconds >= 3600) && (|f| == 2 <==> seconds < 3600)
  {
    ClockParts(seconds);
    var h, m, s := Hours(seconds), MinutesOfHour(seconds), SecondsOfMinute(seconds);
    if h > 0 {
      ColonFieldsThree(h, m, s);
      SexagesimalOfThree(h, m, s);
    } else {
      ColonFieldsTwo(m, s);
      SexagesimalOfTwo(m, s);
    }
  }

  /** The ending screen's label shows the duration exactly, with an hour field
      exactly when the duration reaches one hour. */
  lemma {:induction false} EndingFormatTimeReadsBack(seconds: nat)
    ensures var f := ReadFields(EndingFormatTime(seconds));
            && Sexagesimal(f) == seconds && Canonical(f)
            && (|f| == 3 <==> seconds >= 3600) && (|f| == 2 <==> seconds < 3600)
  {
    ClockParts(seconds);
    var h, m, s := Hours(seconds), MinutesOfHour(seconds), SecondsOfMinute(seconds);
    if h > 0 {
      UnitFieldsThree(h, m, s);
      SexagesimalOfThree(h, m, s);
    } else {
      UnitFieldsTwo(m, s);
      SexagesimalOfTwo(m, s);
    }
  }

  /** The leaderboard's label drops the seconds: it shows the whole minutes of the
      duration, with an hour field exactly when the duration reaches one hour. */
  lemma {:induction false} BoardFormatTimeReadsBack(seconds: nat)
    ensures var f := ReadFields(BoardFormatTime(seconds));
            && Sexagesimal(f) == seconds / 60 && Canonical(f)
            && (|f| == 2 <==> seconds >= 3600) && (|f| == 1 <==> seconds < 3600)
  {
    ClockParts(seconds);
    var h, m := Hours(seconds), MinutesOfHour(seconds);
    if h > 0 {
      UnitFieldsHoursMinutes(h, m);
      SexagesimalOfTwo(h, m);
    } else {
      UnitFieldsMinutes(m);
      assert [m][..0] == [];
    }
  }

  /** The countdown label shows the time left exactly as minutes and seconds. */
  lemma {:induction false} ClockLabelReadsBack(timeLeft: nat)
    ensures var f := ReadFields(ClockLabel(timeLeft));
            && |f| == 2 && Sexagesimal(f) == timeLeft && Canonical(f)
  {
    ColonFieldsTwo(timeLeft / 60, timeLeft % 60);
    SexagesimalOfTwo(timeLeft / 60, timeLeft % 60);
  }
}

=== FILE: wrappers.dfy ===
/** The optional-value type used wherever the source has `T | null`, `T | undefined`
    or an optional property. */
module Wrappers {
  datatype Option<+T> = None | Some(value: T)
}
